=== FILE: README.md ===
# persistent_set, modelled in Dafny

A model of `persistent_set<T>`, a persistent ordered set. It is a binary
search tree hung under a keyless sentinel root. Every edit goes through
one path-copying routine, `copy_path`. That routine clones the chain of
nodes from the root to a key, splices a replacement subtree in at the end
of the chain, and overwrites the replacement's children with two given
subtrees. Everything off the chain is shared with the previous version.

Keys are `int`. The tree is the immutable datatype
`Tree = Nil | Node(left, key, right)`, so a previous version is never
touched by construction, except where the source writes into a shared
node in place (see `ResetIn` below). An iterator is `End` (the sentinel)
or `At(k)`, meaning the node that a search for `k` stops at. A container
is `PSet(root: Sentinel(left, right), count)`. `count` is the `size_t`
counter `size_`, with explicit 64-bit wrap-around.

Modules:

- `Trees` (tree.dfy): the node model.
  - `Keys` and `InOrder` are the abstractions. `InOrder` is the structural in-order sequence (left subtree, node, right subtree), so duplicate nodes stay visible.
  - What `begin()` and `operator++` actually visit is `PersistentSets.Iterate`. Each `++` searches from the root, so the two agree on a search tree (`IterateIsInOrder`) and may differ on any other tree.
  - `BST` is search-tree order.
  - Node helpers: `is_leaf`, `has_one_child`, `get_only_child`, `link*`, `min_in_subtree`, `max_in_subtree`.
- `CopyPaths` (copy_path.dfy): `copy_path`, its graft, and the facts about it:
  - the structural order around the copied path;
  - the key set of the result;
  - search-tree order of the result;
  - which subtrees the result shares with the old tree;
  - a second copy along the same path overwriting the first.
- `Search` (search.dfy): the read-only descents `find`, `lower_bound`, `upper_bound`, `next` and `prev`. Each is written as the loop it is, with a "best candidate so far" accumulator. Each is proved against a declarative statement: the least key ≥ k, the least key > k, the greatest key < k.
- `PersistentSets` (persistent_set.dfy): the container.
  - Container operations: construction, copy, move, swap, `size`, `empty`, `clear`, `begin`, `insert`, `erase`, and iterator `++` and `--`.
  - `erase` is modelled as written, including its defects, on every iterator where the source's `erase` is defined (`Erasable`). Where it is not defined, the model has a precondition instead; `Findings.StaleNodeBlocksErase` shows a version the program can reach where that happens.
- `Findings` (findings.dfy):
  - concrete inputs on which the code as written departs from what it evidently intends;
  - corrected definitions, with the intended properties proved.

In several places the code departs from what it evidently intends. The model follows the code:

- `insert` of a present key returns `end()`. `std::set::insert`, whose interface this one mirrors, returns an iterator to the element already present.
- Erasing a node with two children leaves a stale node for the successor in the tree. The tree is then no longer a search tree.
- Erasing a node with one child loses that child's children, in every version sharing the child.
- The size counter is not carried by copy, move, assignment, `swap` or `clear`.

Each is listed under "## Findings" with an input that shows it.

## Model

| member | source | states |
|---|---|---|
| Trees.OnlyChild | persistent_set.h:299-309 | a leaf yields a null child; a node with one child yields that child, and the node's keys are the child's keys plus its own |
| Trees.Lookup | persistent_set.h:70-85 | the descent of `find` stops either at null or at a node that holds the searched key and lies inside the tree |
| Trees.LookupFindsPresentKeys | persistent_set.h:70-85 | on a search tree the descent reaches a node exactly when the key is present |
| Trees.IsLeaf | persistent_set.h:299-301 | a node is a leaf exactly when its structural order is its own key alone |
| Trees.HasOneChild | persistent_set.h:303-305 | a node has one child exactly when it is not a leaf and lacks a child on some side; `PersistentSets.NodeShapes` completes the three-way split |
| Trees.Leftmost | persistent_set.h:255-260 | `min_in_subtree` ends at a key of the subtree, whatever its order; on a search tree it is the least key (`LeftmostIsMinimum`) |
| Trees.Rightmost | persistent_set.h:262-267 | `max_in_subtree` ends at a key of the subtree, whatever its order; on a search tree it is the greatest key (`RightmostIsMaximum`) |
| Trees.Link | persistent_set.h:235-252 | `link` replaces the child on the given side, keeps the key and the other child, and leaves a null parent null |
| Trees.LinkLaws | persistent_set.h:235-252 | linking twice on one side keeps only the second child; linking both sides commutes; relinking a node's own child gives the node back |
| Trees.BSTInOrderSorted | persistent_set.h:42-47 | the structural in-order sequence of a search tree is strictly increasing and holds every key once |
| Trees.LeftmostIsMinimum | persistent_set.h:255-260 | `min_in_subtree` reaches a key of the subtree that no other key is below |
| Trees.RightmostIsMaximum | persistent_set.h:262-267 | `max_in_subtree` reaches a key of the subtree that no other key is above |
| Trees.LookupLeftmost | persistent_set.h:255-260 | the node `min_in_subtree` reaches has no left child, and a search for its key stops there |
| CopyPaths.CopyPath | persistent_set.h:145-180 | the new tree holds no key that is not in the old tree or in the graft |
| CopyPaths.Graft | persistent_set.h:152-156 | the graft at the end of the path is null exactly when the replacement is, and otherwise is the replacement's key over `left_end` and `right_end`; `GraftDiscardsChildren` gives its in-order sequence |
| CopyPaths.GraftDiscardsChildren | persistent_set.h:152-156 | the graft keeps only the replacement's key and puts `left_end`/`right_end` under it; a null replacement stays null |
| CopyPaths.GraftOwnChildren | persistent_set.h:152-156 | grafting a node onto its own children gives the node back, so a child spliced in with its own children is kept intact |
| CopyPaths.InOrderAroundSearch | persistent_set.h:147-152 | the structural order splits into the keys before the slot where the search stops, the subtree found there, and the keys after it |
| CopyPaths.CopyPathInOrder | persistent_set.h:145-180 | the new version's structural order is the old one's, with the subtree at the slot replaced by the graft |
| CopyPaths.CopyPathKeys | persistent_set.h:145-180 | on a search tree the new keys are the old keys minus the found subtree's keys, plus the graft's keys |
| CopyPaths.CopyPathOrdered | persistent_set.h:145-180 | a graft that is a search tree and fits the path's turns keeps the whole tree a search tree |
| CopyPaths.CopyPathShares | persistent_set.h:159-166 | every subtree hanging off the copied path is reused, not cloned, by the new version |
| CopyPaths.LookupWithin | persistent_set.h:70-85 | a key that follows the search path for `k` is found inside the subtree at `k` |
| CopyPaths.CopyPathBelowIsOverwritten | persistent_set.h:409-410 | a path copy to a key below `k`, followed by a path copy to `k`, builds the same tree as the second copy alone |
| Search.Find | persistent_set.h:70-85 | `find` returns the end iterator or an iterator to the searched key, and the latter only when the key is present |
| Search.FindCorrect | persistent_set.h:70-85 | on a search tree `find(k)` is `At(k)` if and only if `k` is present, and `end()` if and only if it is absent |
| Search.LowerBound | persistent_set.h:87-100 | `lower_bound(k)` returns `end()` or a present key at least `k` |
| Search.LowerBoundFrom | persistent_set.h:87-100 | the loop returns its starting candidate or a present key at least `k` |
| Search.LowerBoundFromCorrect | persistent_set.h:87-100 | with a candidate above the whole subtree, the loop returns the least key ≥ k, or the candidate when every key is below k |
| Search.LowerBoundCorrect | persistent_set.h:87-100 | `lower_bound(k)` is the least key ≥ k, or `end()` when every key is below k |
| Search.NextFrom | persistent_set.h:102-115 | the loop returns its starting candidate or a present key above `k` |
| Search.NextFromCorrect | persistent_set.h:284-297 | with a candidate above the whole subtree, the loop returns the least key > k, or the candidate when no key is above k |
| Search.NextCorrect | persistent_set.h:284-297 | root-relative `next` (and `upper_bound`) from `k` is the least key > k, or `end()` when there is none |
| Search.Next | persistent_set.h:284-297 | `next` yields `end()` or a present key above `k` |
| Search.PrevFrom | persistent_set.h:269-282 | the loop returns its starting candidate or a present key below `k` |
| Search.PrevFromCorrect | persistent_set.h:269-282 | with a candidate below the whole subtree, the loop returns the greatest key < k, or the candidate when no key is below k |
| Search.PrevCorrect | persistent_set.h:269-282 | root-relative `prev` from `k` is the greatest key < k, or `end()` when there is none |
| Search.Prev | persistent_set.h:269-282 | `prev` yields `end()` or a present key below `k` |
| Search.BoundsOnOddKeys | persistent_set.h:87-115 | on {1, 3, 5, 7}: lower_bound(4) = lower_bound(5) = 5, upper_bound(5) = 7, upper_bound(7) = end() |
| PersistentSets.Incr | persistent_set.h:64 | `++size_` is addition modulo 2^64 |
| PersistentSets.Decr | persistent_set.h:402 | `--size_` is subtraction modulo 2^64; `++` of the result gives back the counter, and `--` after `++` gives back the result |
| PersistentSets.EmptySet | persistent_set.h:11 | a default-constructed set has no keys, counter 0, and a sentinel with no right child |
| PersistentSets.IsEmpty | persistent_set.h:38-40 | since the sentinel is linked only on its left, `empty()` holds exactly when the tree is null, i.e. when iteration visits nothing |
| PersistentSets.Clear | persistent_set.h:34-36 | `clear()` makes the set empty and leaves the counter as it was |
| PersistentSets.Begin | persistent_set.h:42-47 | `begin() == end()` exactly when the set is empty; otherwise `begin()` names a key of the tree, which on a search tree is the least key |
| PersistentSets.FindIn | persistent_set.h:70-85 | `find` on the container is `end()` or names `k`; on a search tree it is `At(k)` exactly when `k` is present (`Findings.NonSearchTreeReads` shows a reachable version where it misses a present key) |
| PersistentSets.LowerBoundIn | persistent_set.h:87-100 | on a search tree, `lower_bound` on the container is the least key ≥ k, or `end()` |
| PersistentSets.UpperBoundIn | persistent_set.h:102-115 | on a search tree, `upper_bound` on the container is the least key > k, or `end()` |
| PersistentSets.Advance | persistent_set.h:344-349 | `++end()` stays `end()`; `++` elsewhere moves to a key of the tree above the current one or to `end()`, and on a search tree to the least such key |
| PersistentSets.IterateFrom | persistent_set.h:344-349 | repeated `++` from a key of the tree visits that key first, then strictly increasing keys of the tree, and reaches `end()` |
| PersistentSets.Iterate | persistent_set.h:42-47 | `begin()` to `end()` visits strictly increasing keys of the tree, and none exactly when the tree is empty |
| PersistentSets.IterateIsInOrder | persistent_set.h:284-297 | on a search tree, `begin()` followed by `++` until `end()` visits exactly the structural in-order sequence |
| PersistentSets.Retreat | persistent_set.h:356-363 | on a search tree, `--end()` on a non-empty set names the greatest key, and `--` elsewhere moves to the greatest key below, or to `end()` before the first key |
| PersistentSets.Insert | persistent_set.h:56-66 | a present key changes nothing and returns `(end(), false)`; otherwise the counter goes up by one and the iterator names the key |
| PersistentSets.InsertSortedBetween | persistent_set.h:60-65 | merging `k` into a sorted sequence places it exactly between the keys below and the keys above it |
| PersistentSets.InsertPresent | persistent_set.h:56-59 | inserting a present key leaves tree and counter unchanged and returns `(end(), false)` |
| PersistentSets.InsertAbsent | persistent_set.h:60-65 | inserting an absent key keeps search-tree order, adds exactly that key, merges it into the in-order sequence, makes `find` succeed, and increments the counter |
| PersistentSets.SnapshotSurvivesInsert | persistent_set.h:12 | after `b = a; a.insert(x)`, `b` keeps its tree and does not find `x`, `a` finds it, and `a` reuses every subtree of `b` off the copied path |
| PersistentSets.Copy | persistent_set.h:12 | the copy constructor shares the very same tree (same root, hence the same shape and order) but starts its counter at 0 |
| PersistentSets.Assign | persistent_set.h:15-20 | copy assignment shares the other's very same tree (same root) and keeps this counter |
| PersistentSets.Move | persistent_set.h:13 | the move constructor takes the tree with counter 0; the source is left empty with its counter |
| PersistentSets.MoveAssign | persistent_set.h:21-26 | move assignment takes the other tree and keeps this counter; the other is left empty with its counter |
| PersistentSets.Swap | persistent_set.h:117-119 | `swap` exchanges the trees and not the counters |
| PersistentSets.AboveShrinks | persistent_set.h:405-409 | the successor has fewer keys above it than the erased key, so the recursive erase terminates |
| PersistentSets.ResetIn | persistent_set.h:152-156 | overwriting a shared node's children in place can only lose keys |
| PersistentSets.ResetKeys | persistent_set.h:152-156 | the in-place overwrite loses at most the keys below the overwritten node |
| PersistentSets.ResetChildless | persistent_set.h:152-156 | overwriting the children of a node that has none changes nothing |
| PersistentSets.ResetElsewhere | persistent_set.h:152-156 | a tree without the overwritten node's key is unaffected |
| PersistentSets.EraseAt | persistent_set.h:393-414 | the recursive erase, with its compensating `++size_` in the two-child branch, changes the counter by exactly one decrement |
| PersistentSets.Erase | persistent_set.h:386-415 | `erase(end())` changes nothing and returns `end()`; any other erase decrements the counter by one and never links the sentinel's right side |
| PersistentSets.EraseLeaf | persistent_set.h:395-403 | erasing a leaf keeps search-tree order, removes exactly its key from the set and from the in-order sequence, touches no shared node, and returns the old successor |
| PersistentSets.EraseOneChild | persistent_set.h:395-403 | erasing a one-child node keeps search-tree order and keeps only the child's key from the node's subtree; it removes exactly the erased key when the child is a leaf; it returns the old successor and resets the child |
| PersistentSets.SuccessorOfTwoChildNode | persistent_set.h:405 | the successor of a node with a right child is the leftmost key of that child, and its node has no left child |
| PersistentSets.LeftmostOfRightIsLeastAbove | persistent_set.h:405 | the leftmost key of the right child of the node at `k` is the least key of the whole tree above `k` |
| PersistentSets.SuccessorChild | persistent_set.h:397 | the child the inner erase splices in lies inside the erased node's right subtree |
| PersistentSets.ErasableOnBST | persistent_set.h:404-409 | on a search tree every present key can be erased, because the inner erase always takes the 0/1-child branch |
| PersistentSets.EraseTwoChildrenTree | persistent_set.h:404-414 | the two-child branch builds the outer path copy alone. That copy carries a clone of the successor, the node's left child, and its right child as it reads after the inner reset |
| PersistentSets.NodeShapes | persistent_set.h:299-305 | a node is not both a leaf and a one-child node, and it is neither exactly when both children are present, the branch split `erase` relies on |
| PersistentSets.GraftSuccessorInOrder | persistent_set.h:410 | grafting the successor's clone replaces `k` by the successor in the structural order |
| PersistentSets.GraftSuccessorKeys | persistent_set.h:410 | grafting the successor's clone drops `k` and the keys missing from the new right child, and keeps every other key |
| PersistentSets.RepeatedKeyBreaksOrder | persistent_set.h:407-410 | a tree whose structural order repeats a key is not a search tree |
| PersistentSets.TwoChildResultKeys | persistent_set.h:404-414 | the two-child branch loses `k` and at most the successor's grandchildren, and exactly `k` when the successor's child has no children |
| PersistentSets.EraseTwoChildren | persistent_set.h:404-414 | after erasing a two-child node, the structural order is as before with `k` replaced by its successor, which stays in the right child too; the result is no search tree; the returned iterator names the successor; the counter drops by one |
| PersistentSets.EraseRemovesKey | persistent_set.h:386-415 | on a search tree, erasing any present key makes `find` of that key return `end()` and decrements the counter |
| Findings.SpineOfThree | persistent_set.h:56-66 | inserting 1, 2, 3 builds a right spine |
| Findings.OneChildEraseDropsGrandchildren | persistent_set.h:397-400 | insert 1, 2, 3 then erase 1 leaves the in-order sequence [2] |
| Findings.TreeOfThree | persistent_set.h:56-66 | inserting 3, 1, 4 gives 3 two leaf children |
| Findings.ThreeKeyErase | persistent_set.h:404-414 | erasing 3 from 3(1, 4) builds 4(1, 4) and returns 4 |
| Findings.TreeOfFour | persistent_set.h:56-66 | inserting 10, 4, 1, 5 gives 10(4(1, 5), -) |
| Findings.FourKeyFirstErase | persistent_set.h:404-414 | erasing 4 from 10(4(1, 5), -) builds 10(5(1, 5), -) and leaves the counter at 3 |
| Findings.FourKeySecondErase | persistent_set.h:395-414 | erasing 5 from 10(5(1, 5), -) recurses on 10, found by `next` from the root, and builds 10(1, 5) |
| Findings.NonSearchTreeReads | persistent_set.h:70-115 | after inserting 10, 4, 1, 5 and erasing 4 and then 5, the version is 10(1, 5) with size 2: `find(5)` is `end()` though 5 is present, `lower_bound(2)` and `upper_bound(1)` name 10, `++` from 1 gives 10, `--end()` names 5, and the forward visit reads [1, 10] |
| Findings.NonSearchTreeSteps | persistent_set.h:344-363 | on the literal tree 10(1, 5), `++` from 1 gives 10, `--end()` gives 5, and `begin()` with `++` visits [1, 10] |
| Findings.StaleNodeBlocksErase | persistent_set.h:404-409 | after inserting 3, 1, 4 and erasing 3, `find(4)` reaches a node with two children whose `next` is `end()`, so erasing it is undefined |
| Findings.EraseFixedErasesBoth | persistent_set.h:386-415 | with the corrected erase, erasing 3 and then 4 from {3, 1, 4} leaves {1} |
| Findings.OneChildEraseReturnsLostKey | persistent_set.h:395-403 | erasing 1 from the search tree 1(-, 3(2, -)) leaves the tree 3 and returns an iterator naming 2, which is no longer in it |
| Findings.EraseCorruptsSnapshot | persistent_set.h:397-400 | a copy of {1, 2, 3} reads [1, 2] after 1 is erased from the original |
| Findings.TreeOfFive | persistent_set.h:56-66 | inserting 3, 1, 4, 2, 5 gives 3 two children |
| Findings.TwoChildEraseDuplicatesSuccessor | persistent_set.h:407-410 | erasing 3 from that tree leaves five nodes for four keys, with structural order [1, 2, 4, 4, 5]; it returns 4 and leaves the counter at 4 |
| Findings.TwoChildEraseLeavesStaleNode | persistent_set.h:407-410 | the set iterated [1, 2, 3, 4, 5]; after erasing 3 it is no search tree, while iteration still visits [1, 2, 4, 5] |
| Findings.FiveKeyIterates | persistent_set.h:344-349 | `begin()` and `++` on the tree that erase leaves visit [1, 2, 4, 5], passing the stale 4 over |
| Findings.SevenKeyTree | persistent_set.h:405 | the tree 10(1, 50(20(-, 30(25, 35)), -)) is a search tree whose in-order sequence is [1, 10, 20, 25, 30, 35, 50] |
| Findings.SevenKeySuccessor | persistent_set.h:405 | in that tree the successor of 10 is 20, whose node has the single child 30, so erasing 10 is defined |
| Findings.TwoChildEraseDropsSuccessorGrandchildren | persistent_set.h:407-410 | erasing 10 from that tree leaves the structural order [1, 20, 20, 30, 50] and resets node 30 in place |
| Findings.TwoChildEraseLosesKeysFromIteration | persistent_set.h:407-410 | the set iterated over all seven keys; after erasing 10, iteration visits [1, 20, 30, 50] while the counter reads 6 |
| Findings.SevenKeyEraseIterates | persistent_set.h:344-349 | `begin()` and `++` on the tree that erase leaves visit [1, 20, 30, 50] |
| Findings.SpliceOutCorrect | persistent_set.h:395-403 | the corrected 0/1-child erase keeps search-tree order and removes exactly the key |
| Findings.SuccessorReplacement | persistent_set.h:404-414 | the successor of a two-child node has at most one child, and the successor over the node's left child and its right child without the successor is a search tree holding the node's keys except its own |
| Findings.EraseFixedCorrect | persistent_set.h:404-414 | the corrected erase keeps search-tree order and removes exactly the key in every branch |
| Findings.EraseFixed | persistent_set.h:386-415 | the corrected `erase` touches no shared node; it removes exactly the key, returns the old successor, which is a key of the new version, and decrements the counter |
| Findings.EraseFixedOnWitnesses | persistent_set.h:395-414 | the corrected erase gives [2, 3] and [1, 2, 4, 5] on the two inputs above |
| Findings.EraseFixedOnSevenKeys | persistent_set.h:404-414 | the corrected erase of 10 from the seven-key tree leaves the in-order sequence [1, 20, 25, 30, 35, 50] |
| Findings.CounterNotCarried | persistent_set.h:12-36 | after copy, `clear`, or `swap`, the counter no longer agrees with the number of keys; erasing from a copy wraps it to 2^64 - 1 |
| Findings.CopyFixed | persistent_set.h:12 | a copy that carries the counter keeps it agreeing with the number of keys |
| Findings.MoveAndAssignDropCounter | persistent_set.h:13-26 | moving {1} gives an instance of size 0 and leaves the emptied source at size 1; assigning {1} to an empty set, by copy or by move, keeps size 0 |
| Findings.MoveFixed | persistent_set.h:13 | a move that takes the counter along and zeroes the source keeps both agreeing |
| Findings.AssignFixed | persistent_set.h:15-20 | a copy assignment that takes the counter keeps it agreeing |
| Findings.MoveAssignFixed | persistent_set.h:21-26 | a move assignment that takes the counter and zeroes the source keeps both agreeing |
| Findings.SwapFixed | persistent_set.h:117-119 | a swap that exchanges the counters keeps both agreeing |
| Findings.ClearFixed | persistent_set.h:34-36 | a clear that resets the counter leaves an empty set whose counter agrees |
| Findings.InsertKeepsCountAgreeing | persistent_set.h:56-66 | `insert` keeps an agreeing counter agreeing, modulo 2^64 |
| Findings.EraseFixedKeepsCountAgreeing | persistent_set.h:402 | the corrected erase keeps an agreeing counter agreeing, modulo 2^64 |
| Findings.WrapShift | persistent_set.h:64 | adding to a counter reduced modulo 2^64 is the same as adding before reducing |
| Findings.InsertPresentReturnsEnd | persistent_set.h:57-58 | inserting 1 into {1} returns `end()` although `find(1)` succeeds |
| Findings.InsertFixed | persistent_set.h:56-66 | an insert that returns `find`'s iterator for a present key always returns an iterator naming the key, and adds the key exactly when it was absent |

## Left out

- Exceptions and allocation failure are not modelled. This covers the `try`/`catch` in `copy_path` (persistent_set.h:159-165) and the strong guarantee it gives. Dafny has no allocation failure.
- Shared-pointer reference counting and memory reclamation are not modelled. Subtrees are values.
- Node identity and iterator pointer equality are not modelled (persistent_set.h:370-376, 379-382). An iterator is named by its key, and the node it points to is the one a search for that key reaches. This agrees with the code on a search tree. After a two-child erase the tree holds a key twice, and then the code's pointer may name the deeper copy where the model names the upper one. This includes the successor the 0/1-child erase returns, which points into the old tree (persistent_set.h:396). When no other version holds the old path, that node loses its last owner during the erase itself, and the returned iterator dangles. On the input of `Findings.OneChildEraseReturnsLostKey`, node 2 is released when line 154 overwrites its parent's left child. The model names the key instead.
- The in-place overwrite of a shared node's children, where the identity of the shared node is approximated:
  - `ResetIn` identifies nodes by value.
  - `EraseResult.cleared` reports the overwritten node. A version sharing the whole erased-from tree reads as `ResetIn(tree, cleared)`.
  - Other versions are not tracked by the model.
- Dereference `operator*`/`operator->`, post-increment and post-decrement (persistent_set.h:337-368) are not modelled separately. They forward to the pre-increment forms or to the key.
- `rbegin`/`rend` (persistent_set.h:49-54) are not modelled. They are `std::reverse_iterator` adapters over `Advance`/`Retreat`.
- The destructor, the friend `swap` and `make_iterator`/`get_value` (persistent_set.h:28, 121-123, 133-139) have no behaviour beyond what the model already states.
- `Size` returns the counter and carries no contract of its own. What the counter does is stated by `Incr`, `Decr`, `Insert`, `Erase` and the counter findings.
- PersistentSets.Retreat: requires a non-empty tree when stepping back from `end()`. There the source returns an iterator holding a null pointer (persistent_set.h:360), which no other operation accepts and which the `End | At` iterator cannot represent.
- PersistentSets.Erase: requires `Erasable`. The iterator must name a node of this version, and for a node with two children `next` must find a successor that is itself erasable. On a search tree every present key qualifies (`ErasableOnBST`). On a tree left behind by a two-child erase, a key that `find` reaches can fail this: `next` returns the sentinel, and the source then casts it to a value node and copies a value it does not hold (persistent_set.h:404-408), which is undefined behaviour. The model has no erase there; see `Findings.StaleNodeBlocksErase`.
- PersistentSets.Assign: the source's `if (this != &other)` guard (persistent_set.h:16) is not modelled. Values have no identity, so the model takes `self` and `other` as two instances. Assigning an instance to itself gives back the same instance either way.
- PersistentSets.MoveAssign: the source's `if (this != &other)` guard (persistent_set.h:22) makes self-assignment a no-op. The model takes `self` and `other` as two distinct instances and returns both. It cannot express aliasing, so `MoveAssign(s, s)` describes two instances, not one instance left unchanged.
- PersistentSets.EraseAt: the inner erase of the successor (persistent_set.h:409) is modelled by a search for the successor's key. The source instead passes the node pointer `next` returned. The two agree on search trees, which is where `ErasableOnBST` holds.
- Keys are `int` with `<`. The key type's own comparison and copying are not modelled.

## Findings

| source | as written | input that shows it | evidently intended | confidence | as-written member | corrected member |
|---|---|---|---|---|---|---|
| persistent_set.h:397-400 | the 0/1-child erase grafts the existing child with null ends, so the child's own children are overwritten with null | insert 1, 2, 3; erase 1 → the set reads [2] | the child keeps its children: [2, 3] | high; not executed | Findings.OneChildEraseDropsGrandchildren | Findings.SpliceOutCorrect |
| persistent_set.h:395-403 | the 0/1-child erase returns the successor in the old tree, which it may just have dropped | search tree 1(-, 3(2, -)); erase 1 → the tree holds only 3, the returned iterator names 2 | the returned iterator names a key of the new version | high; not executed | Findings.OneChildEraseReturnsLostKey | Findings.EraseFixed |
| persistent_set.h:397-400 | the overwrite is in place on a node shared with every earlier version | `b` a copy of {1, 2, 3}; erase 1 from the original → `b` reads [1, 2] | earlier versions are unaffected by an edit | high; not executed | Findings.EraseCorruptsSnapshot | Findings.EraseFixed |
| persistent_set.h:407-410 | the two-child erase grafts the node's original right child, which still holds the successor | insert 3, 1, 4, 2, 5; erase 3 → five nodes for four keys, structural order [1, 2, 4, 4, 5], no longer a search tree; iteration still visits [1, 2, 4, 5] | the stale 4 is gone: four nodes, structural order [1, 2, 4, 5] | medium; not executed | Findings.TwoChildEraseLeavesStaleNode | Findings.EraseFixedCorrect |
| persistent_set.h:404-409 | after a two-child erase leaves a stale successor node, `next` from a key `find` reaches can be the sentinel, which the next two-child erase casts to a value node | insert 3, 1, 4; erase 3 → tree 4(1, 4); erase `find(4)` → `next` is `end()`: undefined behaviour, and line 409's `erase(end())` does nothing | erasing 4 leaves {1} | high; not executed | Findings.StaleNodeBlocksErase | Findings.EraseFixedErasesBoth |
| persistent_set.h:407-410 | the original right child is read after the inner erase has overwritten the successor's child in place | search tree 10(1, 50(20(-, 30(25, 35)), -)); erase 10 → iteration [1, 20, 30, 50] while `size()` is 6 | [1, 20, 25, 30, 35, 50] | high; not executed | Findings.TwoChildEraseLosesKeysFromIteration | Findings.EraseFixedOnSevenKeys |
| persistent_set.h:12 | the copy constructor does not carry `size_` | copy of {1} → `size()` 0; erasing 1 from it → 2^64 - 1 | the counter travels with the tree | high; not executed | Findings.CounterNotCarried | Findings.CopyFixed |
| persistent_set.h:13 | the move constructor does not carry `size_` and leaves it on the emptied source | move {1} → new set `size()` 0, source `size()` 1 | the counter moves with the tree | high; not executed | Findings.MoveAndAssignDropCounter | Findings.MoveFixed |
| persistent_set.h:15-20 | copy assignment keeps this `size_` | assign {1} to an empty set → `size()` 0 | the counter is taken with the tree | high; not executed | Findings.MoveAndAssignDropCounter | Findings.AssignFixed |
| persistent_set.h:21-26 | move assignment keeps this `size_` and leaves the other's on the emptied source | move-assign {1} to an empty set → `size()` 0, source `size()` 1 | the counter moves with the tree | high; not executed | Findings.MoveAndAssignDropCounter | Findings.MoveAssignFixed |
| persistent_set.h:117-119 | `swap` exchanges the roots but not `size_` | swap {1} with an empty set → the empty set reports size 1 | the counters are exchanged too | high; not executed | Findings.CounterNotCarried | Findings.SwapFixed |
| persistent_set.h:34-36 | `clear` does not reset `size_` | clear {1} → `empty()` true, `size()` 1 | size 0 after clear | high; not executed | Findings.CounterNotCarried | Findings.ClearFixed |
| persistent_set.h:57-58 | `insert` of a present key returns `end()` | insert 1 into {1} → `end()` although `find(1)` succeeds | an iterator to the existing element, as `std::set::insert` returns | medium; not executed | Findings.InsertPresentReturnsEnd | Findings.InsertFixed |

=== FILE: copy_path.dfy ===
/** The path-copying primitive `copy_path`: every edit of the persistent set
    rebuilds only the chain of nodes from the root to the edited key, splices
    a replacement subtree in at the end of that chain and reuses every other
    subtree of the old version. */
module CopyPaths {
  import opened Trees

  /** The splice at the end of the copied path: `replace` gets `leftEnd` and
      `rightEnd` as its children, whatever children it had before. A null
      replacement stays null. */
  function Graft(replace: Tree, leftEnd: Tree, rightEnd: Tree): (r: Tree)
    ensures r.Nil? <==> replace.Nil?
    ensures r.Node? ==> r.key == replace.key && r.left == leftEnd && r.right == rightEnd
  {
    Link(Link(replace, leftEnd, Left), rightEnd, Right)
  }

  /** Grafting a node onto its own children gives the node back: splicing a
      child in with its own children as the ends keeps the child intact. */
  lemma GraftOwnChildren(c: Tree)
    requires c.Node?
    ensures Graft(c, c.left, c.right) == c
  {
  }

  /** `copy_path(key, replace, left_end, right_end)` applied to the tree under
      the sentinel; the result is the sentinel's new left child. Each node on
      the search path for `k` is cloned (same key, same children) and the
      clone's child on the side the search continues is relinked to the copy
      of the rest of the path. The walk stops at a null child or at a node
      holding `k`, and the graft takes that position. */
  function CopyPath(t: Tree, k: int, replace: Tree, leftEnd: Tree, rightEnd: Tree): (r: Tree)
    ensures Keys(r) <= Keys(t) + Keys(Graft(replace, leftEnd, rightEnd))
  {
    if t.Nil? || t.key == k then Graft(replace, leftEnd, rightEnd)
    else if t.key < k then Link(t, CopyPath(t.right, k, replace, leftEnd, rightEnd), Right)
    else Link(t, CopyPath(t.left, k, replace, leftEnd, rightEnd), Left)
  }

  /** The keys that the in-order sequence holds before the position the
      search for `k` stops at. */
  function Before(t: Tree, k: int): seq<int> {
    match t
    case Nil => []
    case Node(l, a, r) =>
      if a == k then []
      else if a < k then InOrder(l) + [a] + Before(r, k)
      else Before(l, k)
  }

  /** The keys that the in-order sequence holds after the position the
      search for `k` stops at. */
  function After(t: Tree, k: int): seq<int> {
    match t
    case Nil => []
    case Node(l, a, r) =>
      if a == k then []
      else if a < k then After(r, k)
      else After(l, k) + [a] + InOrder(r)
  }

  /** `x` lies on the same side as `k` of every node the search for `k`
      passes, so it may sit where that search stops. */
  predicate PathFits(t: Tree, k: int, x: int) {
    match t
    case Nil => true
    case Node(l, a, r) =>
      if a == k then true
      else if a < k then a < x && PathFits(r, k, x)
      else x < a && PathFits(l, k, x)
  }

  /** The subtrees hanging off the search path for `k`: the ones the path copy
      does not clone. */
  function OffPath(t: Tree, k: int): set<Tree> {
    match t
    case Nil => {}
    case Node(l, a, r) =>
      if a == k then {}
      else if a < k then {l} + OffPath(r, k)
      else {r} + OffPath(l, k)
  }

  /** Every subtree of a tree, itself included. */
  function Subtrees(t: Tree): set<Tree> {
    match t
    case Nil => {Nil}
    case Node(l, _, r) => {t} + Subtrees(l) + Subtrees(r)
  }

  /** The graft overwrites the replacement's children unconditionally: a
      non-null replacement keeps only its own key. */
  lemma GraftDiscardsChildren(replace: Tree, leftEnd: Tree, rightEnd: Tree)
    ensures Graft(replace, leftEnd, rightEnd).Nil? <==> replace.Nil?
    ensures replace.Node? ==>
      InOrder(Graft(replace, leftEnd, rightEnd)) == InOrder(leftEnd) + [replace.key] + InOrder(rightEnd)
  {
  }

  lemma RegroupRight(p: seq<int>, a: int, b: seq<int>, m: seq<int>, c: seq<int>)
    ensures p + [a] + (b + m + c) == (p + [a] + b) + m + c
  {
  }

  lemma RegroupLeft(b: seq<int>, m: seq<int>, c: seq<int>, a: int, q: seq<int>)
    ensures (b + m + c) + [a] + q == b + m + (c + [a] + q)
  {
  }

  /** The in-order sequence splits around the position the search for `k`
      stops at: the keys before it, the subtree found there, the keys after. */
  lemma {:induction false} InOrderAroundSearch(t: Tree, k: int)
    ensures InOrder(t) == Before(t, k) + InOrder(Lookup(t, k)) + After(t, k)
  {
    match t
    case Nil =>
    case Node(l, a, r) =>
      if a == k {
      } else if a < k {
        InOrderAroundSearch(r, k);
        assert Before(t, k) == InOrder(l) + [a] + Before(r, k);
        assert After(t, k) == After(r, k) && Lookup(t, k) == Lookup(r, k);
        RegroupRight(InOrder(l), a, Before(r, k), InOrder(Lookup(r, k)), After(r, k));
      } else {
        InOrderAroundSearch(l, k);
        assert Before(t, k) == Before(l, k);
        assert After(t, k) == After(l, k) + [a] + InOrder(r) && Lookup(t, k) == Lookup(l, k);
        RegroupLeft(Before(l, k), InOrder(Lookup(l, k)), After(l, k), a, InOrder(r));
      }
  }

  /** The path copy changes exactly the middle of that split: the result
      visits the old keys before the search position, then the graft, then
      the old keys after it. */
  lemma {:induction false} CopyPathInOrder(t: Tree, k: int, replace: Tree, leftEnd: Tree, rightEnd: Tree)
    ensures InOrder(CopyPath(t, k, replace, leftEnd, rightEnd))
         == Before(t, k) + InOrder(Graft(replace, leftEnd, rightEnd)) + After(t, k)
  {
    var g := InOrder(Graft(replace, leftEnd, rightEnd));
    match t
    case Nil =>
    case Node(l, a, r) =>
      if a == k {
      } else if a < k {
        CopyPathInOrder(r, k, replace, leftEnd, rightEnd);
        var rest := CopyPath(r, k, replace, leftEnd, rightEnd);
        assert CopyPath(t, k, replace, leftEnd, rightEnd) == Node(l, a, rest);
        assert InOrder(Node(l, a, rest)) == InOrder(l) + [a] + InOrder(rest);
        assert Before(t, k) == InOrder(l) + [a] + Before(r, k);
        assert After(t, k) == After(r, k);
        RegroupRight(InOrder(l), a, Before(r, k), g, After(r, k));
      } else {
        CopyPathInOrder(l, k, replace, leftEnd, rightEnd);
        var rest := CopyPath(l, k, replace, leftEnd, rightEnd);
        assert CopyPath(t, k, replace, leftEnd, rightEnd) == Node(rest, a, r);
        assert InOrder(Node(rest, a, r)) == InOrder(rest) + [a] + InOrder(r);
        assert Before(t, k) == Before(l, k);
        assert After(t, k) == After(l, k) + [a] + InOrder(r);
        RegroupLeft(Before(l, k), g, After(l, k), a, InOrder(r));
      }
  }

  /** The searched key itself always fits the position its search stops at. */
  lemma {:induction false} OwnKeyFits(t: Tree, k: int)
    ensures PathFits(t, k, k)
  {
    match t
    case Nil =>
    case Node(l, a, r) =>
      if a < k {
        OwnKeyFits(r, k);
      } else if k < a {
        OwnKeyFits(l, k);
      }
  }

  /** On a search tree every key below the position the search for `k` stops
      at fits that position. */
  lemma {:induction false} SubtreeKeysFit(t: Tree, k: int, x: int)
    requires BST(t)
    requires x in Keys(Lookup(t, k))
    ensures PathFits(t, k, x)
  {
    match t
    case Nil =>
    case Node(l, a, r) =>
      if a < k {
        SubtreeKeysFit(r, k, x);
      } else if k < a {
        SubtreeKeysFit(l, k, x);
      }
  }

  /** On a search tree a key that fits the search position for `k` is larger
      than every key in order before that position and smaller than every key
      in order after it. */
  lemma {:induction false} FittingKeySeparates(t: Tree, k: int, x: int)
    requires BST(t)
    requires PathFits(t, k, x)
    ensures forall y :: y in Before(t, k) ==> y < x
    ensures forall y :: y in After(t, k) ==> x < y
  {
    match t
    case Nil =>
    case Node(l, a, r) =>
      if a < k {
        FittingKeySeparates(r, k, x);
        KeysAreInOrderElements(l);
      } else if k < a {
        FittingKeySeparates(l, k, x);
        KeysAreInOrderElements(r);
      }
  }

  lemma SpliceKeysRight(lk: set<int>, a: int, rk: set<int>, sub: set<int>, g: set<int>)
    requires sub <= rk && a !in sub && lk !! sub
    ensures lk + {a} + ((rk - sub) + g) == ((lk + {a} + rk) - sub) + g
  {
  }

  lemma SpliceKeysLeft(lk: set<int>, a: int, rk: set<int>, sub: set<int>, g: set<int>)
    requires sub <= lk && a !in sub && rk !! sub
    ensures ((lk - sub) + g) + {a} + rk == ((lk + {a} + rk) - sub) + g
  {
  }

  /** On a search tree the path copy removes exactly the keys of the subtree it
      replaces and adds exactly the keys of the graft. */
  lemma {:induction false} CopyPathKeys(t: Tree, k: int, replace: Tree, leftEnd: Tree, rightEnd: Tree)
    requires BST(t)
    ensures Keys(CopyPath(t, k, replace, leftEnd, rightEnd))
         == (Keys(t) - Keys(Lookup(t, k))) + Keys(Graft(replace, leftEnd, rightEnd))
  {
    match t
    case Nil =>
    case Node(l, a, r) =>
      var g := Keys(Graft(replace, leftEnd, rightEnd));
      if a == k {
      } else if a < k {
        CopyPathKeys(r, k, replace, leftEnd, rightEnd);
        var rest := CopyPath(r, k, replace, leftEnd, rightEnd);
        assert CopyPath(t, k, replace, leftEnd, rightEnd) == Node(l, a, rest);
        var sub := Keys(Lookup(r, k));
        assert Lookup(t, k) == Lookup(r, k);
        assert sub <= Keys(r);
        forall x | x in sub ensures x !in Keys(l) && x != a {
          assert x in Keys(r);
        }
        SpliceKeysRight(Keys(l), a, Keys(r), sub, g);
      } else {
        CopyPathKeys(l, k, replace, leftEnd, rightEnd);
        var rest := CopyPath(l, k, replace, leftEnd, rightEnd);
        assert CopyPath(t, k, replace, leftEnd, rightEnd) == Node(rest, a, r);
        var sub := Keys(Lookup(l, k));
        assert Lookup(t, k) == Lookup(l, k);
        assert sub <= Keys(l);
        forall x | x in sub ensures x !in Keys(r) && x != a {
          assert x in Keys(l);
        }
        SpliceKeysLeft(Keys(l), a, Keys(r), sub, g);
      }
  }

  /** The path copy keeps search-tree order when the graft is itself ordered
      and each of its keys fits the position it is spliced into. */
  lemma {:induction false} CopyPathOrdered(t: Tree, k: int, replace: Tree, leftEnd: Tree, rightEnd: Tree)
    requires BST(t)
    requires BST(Graft(replace, leftEnd, rightEnd))
    requires forall x :: x in Keys(Graft(replace, leftEnd, rightEnd)) ==> PathFits(t, k, x)
    ensures BST(CopyPath(t, k, replace, leftEnd, rightEnd))
  {
    match t
    case Nil =>
    case Node(l, a, r) =>
      if a == k {
      } else if a < k {
        CopyPathOrdered(r, k, replace, leftEnd, rightEnd);
      } else {
        CopyPathOrdered(l, k, replace, leftEnd, rightEnd);
      }
  }

  lemma {:induction false} SubtreesHoldsItself(t: Tree)
    ensures t in Subtrees(t)
  {
  }

  /** Structural sharing: every subtree hanging off the copied path is reused,
      unchanged, in the new version. Only the nodes on the path are cloned. */
  lemma {:induction false} CopyPathShares(t: Tree, k: int, replace: Tree, leftEnd: Tree, rightEnd: Tree)
    ensures OffPath(t, k) <= Subtrees(CopyPath(t, k, replace, leftEnd, rightEnd))
  {
    match t
    case Nil =>
    case Node(l, a, r) =>
      if a == k {
      } else if a < k {
        CopyPathShares(r, k, replace, leftEnd, rightEnd);
        SubtreesHoldsItself(l);
      } else {
        CopyPathShares(l, k, replace, leftEnd, rightEnd);
        SubtreesHoldsItself(r);
      }
  }

  /** A search for a key that fits the position of `k` passes through the
      node found there. */
  lemma {:induction false} LookupWithin(t: Tree, k: int, x: int)
    requires Lookup(t, k).Node? && PathFits(t, k, x)
    ensures Lookup(t, x) == Lookup(Lookup(t, k), x)
  {
    match t
    case Nil =>
    case Node(l, a, r) =>
      if a < k {
        LookupWithin(r, k, x);
      } else if k < a {
        LookupWithin(l, k, x);
      }
  }

  /** A path copy that ends strictly below the node found for `k` is undone
      by a later path copy that replaces that node: the second copy only sees
      the first one's clones of the nodes above, which are equal to the
      originals. */
  lemma {:induction false} CopyPathBelowIsOverwritten(t: Tree, k: int, x: int,
                                                     r1: Tree, l1: Tree, e1: Tree,
                                                     r2: Tree, l2: Tree, e2: Tree)
    requires Lookup(t, k).Node? && PathFits(t, k, x) && x != k
    ensures CopyPath(CopyPath(t, x, r1, l1, e1), k, r2, l2, e2) == CopyPath(t, k, r2, l2, e2)
  {
    match t
    case Nil =>
    case Node(l, a, r) =>
      if a < k {
        var sub := CopyPath(r, x, r1, l1, e1);
        CopyPathStepRight(t, x, r1, l1, e1);
        CopyPathStepRight(Node(l, a, sub), k, r2, l2, e2);
        CopyPathBelowIsOverwritten(r, k, x, r1, l1, e1, r2, l2, e2);
        CopyPathStepRight(t, k, r2, l2, e2);
      } else if k < a {
        var sub := CopyPath(l, x, r1, l1, e1);
        CopyPathStepLeft(t, x, r1, l1, e1);
        CopyPathStepLeft(Node(sub, a, r), k, r2, l2, e2);
        CopyPathBelowIsOverwritten(l, k, x, r1, l1, e1, r2, l2, e2);
        CopyPathStepLeft(t, k, r2, l2, e2);
      } else {
        var first := CopyPath(t, x, r1, l1, e1);
        assert first.Node? && first.key == k;
      }
  }

  /** One step of the path copy to the right of a node holding a smaller key. */
  lemma CopyPathStepRight(t: Tree, k: int, replace: Tree, leftEnd: Tree, rightEnd: Tree)
    requires t.Node? && t.key < k
    ensures CopyPath(t, k, replace, leftEnd, rightEnd)
         == Node(t.left, t.key, CopyPath(t.right, k, replace, leftEnd, rightEnd))
  {
  }

  /** One step of the path copy to the left of a node holding a larger key. */
  lemma CopyPathStepLeft(t: Tree, k: int, replace: Tree, leftEnd: Tree, rightEnd: Tree)
    requires t.Node? && k < t.key
    ensures CopyPath(t, k, replace, leftEnd, rightEnd)
         == Node(CopyPath(t.left, k, replace, leftEnd, rightEnd), t.key, t.right)
  {
  }
}

=== FILE: findings.dfy ===
/** Discrepancies between what `persistent_set` does and what it evidently
    means to do. Each one has a concrete witness against the as-written model
    and a corrected definition with the intended property proved. */
module Findings {
  import opened Trees
  import opened CopyPaths
  import opened Search
  import opened PersistentSets

  /** The set obtained by inserting the keys of `ks` in order. */
  function InsertAll(s: PSet, ks: seq<int>): PSet
    decreases |ks|
  {
    if |ks| == 0 then s else InsertAll(Insert(s, ks[0]).after, ks[1..])
  }

  // ------------------------------------------------ erase, as written

  /** Inserting 1, 2, 3 builds a right spine. */
  lemma SpineOfThree()
    ensures InsertAll(EmptySet(), [1, 2, 3]).root.left == Node(Nil, 1, Node(Nil, 2, Node(Nil, 3, Nil)))
  {
    var s1 := Insert(EmptySet(), 1).after;
    assert s1.root.left == Node(Nil, 1, Nil);
    var s2 := Insert(s1, 2).after;
    assert s2.root.left == Node(Nil, 1, Node(Nil, 2, Nil));
    var s3 := Insert(s2, 3).after;
    assert s3.root.left == Node(Nil, 1, Node(Nil, 2, Node(Nil, 3, Nil)));
    assert InsertAll(EmptySet(), [1, 2, 3]) == InsertAll(s1, [2, 3]);
    assert InsertAll(s1, [2, 3]) == InsertAll(s2, [3]);
    assert InsertAll(s2, [3]) == InsertAll(s3, []);
  }

  /** The in-order sequences of the right spine 1, 2, 3 and of what erasing 1
      leaves of it. */
  lemma SpineReads()
    ensures InOrder(Node(Nil, 1, Node(Nil, 2, Node(Nil, 3, Nil)))) == [1, 2, 3]
    ensures InOrder(Node(Nil, 1, Node(Nil, 2, Nil))) == [1, 2]
    ensures InOrder(Node(Nil, 2, Nil)) == [2]
  {
  }

  /** Insert 1, 2, 3 (a right spine) and erase 1: node 1 has the single child
      2, which is spliced in with its children overwritten by null, so 3 is
      lost along with 1. */
  lemma OneChildEraseDropsGrandchildren()
    ensures var s := InsertAll(EmptySet(), [1, 2, 3]);
      && InOrder(s.root.left) == [1, 2, 3]
      && FindIn(s, 1) == At(1)
      && Erasable(s.root.left, 1)
      && InOrder(Erase(s, At(1)).after.root.left) == [2]
  {
    SpineOfThree();
    SpineReads();
    var t := Node(Nil, 1, Node(Nil, 2, Node(Nil, 3, Nil)));
    var c := Node(Nil, 2, Node(Nil, 3, Nil));
    EraseAtSplice(t, 1, 3);
    assert CopyPath(t, 1, c, Nil, Nil) == Node(Nil, 2, Nil);
    assert Erase(PSet(Sentinel(t, Nil), 3), At(1)).after.root.left == Node(Nil, 2, Nil);
  }

  /** The iterator `erase` returns is the successor in the OLD tree, which
      the 0/1-child branch may just have dropped: erasing 1 from the search
      tree 1(-, 3(2, -)) splices in 3 without its child 2, yet returns an
      iterator naming 2. */
  lemma OneChildEraseReturnsLostKey()
    ensures var t := Node(Nil, 1, Node(Node(Nil, 2, Nil), 3, Nil));
      && BST(t)
      && Erasable(t, 1)
      && var r := Erase(PSet(Sentinel(t, Nil), 3), At(1));
         && r.after.root.left == Node(Nil, 3, Nil)
         && r.next == At(2)
         && 2 !in Keys(r.after.root.left)
  {
    var c := Node(Node(Nil, 2, Nil), 3, Nil);
    var t := Node(Nil, 1, c);
    assert Keys(c) == {2, 3};
    EraseAtSplice(t, 1, 3);
    assert Next(t, 1) == At(2);
    assert CopyPath(t, 1, c, Nil, Nil) == Node(Nil, 3, Nil);
  }

  /** Inserting 3, 1, 4, 2, 5 gives node 3 two children. */
  lemma TreeOfFive()
    ensures InsertAll(EmptySet(), [3, 1, 4, 2, 5])
         == PSet(Sentinel(Node(Node(Nil, 1, Node(Nil, 2, Nil)), 3, Node(Nil, 4, Node(Nil, 5, Nil))), Nil), 5)
  {
    var s3 := PSet(Sentinel(Node(Node(Nil, 1, Nil), 3, Node(Nil, 4, Nil)), Nil), 3);
    FirstThreeOfFive();
    LastTwoOfFive();
    assert InsertAll(EmptySet(), [3, 1, 4, 2, 5]) == InsertAll(s3, [2, 5]);
  }

  /** The first three insertions of `TreeOfFive`. */
  lemma FirstThreeOfFive()
    ensures InsertAll(EmptySet(), [3, 1, 4, 2, 5])
         == InsertAll(PSet(Sentinel(Node(Node(Nil, 1, Nil), 3, Node(Nil, 4, Nil)), Nil), 3), [2, 5])
  {
    var s1 := PSet(Sentinel(Node(Nil, 3, Nil), Nil), 1);
    var s2 := PSet(Sentinel(Node(Node(Nil, 1, Nil), 3, Nil), Nil), 2);
    var s3 := PSet(Sentinel(Node(Node(Nil, 1, Nil), 3, Node(Nil, 4, Nil)), Nil), 3);
    assert Insert(EmptySet(), 3).after == s1;
    assert Insert(s1, 1).after == s2;
    assert Insert(s2, 4).after == s3;
    assert InsertAll(EmptySet(), [3, 1, 4, 2, 5]) == InsertAll(s1, [1, 4, 2, 5]);
    assert InsertAll(s1, [1, 4, 2, 5]) == InsertAll(s2, [4, 2, 5]);
    assert InsertAll(s2, [4, 2, 5]) == InsertAll(s3, [2, 5]);
  }

  /** The last two insertions of `TreeOfFive`. */
  lemma LastTwoOfFive()
    ensures InsertAll(PSet(Sentinel(Node(Node(Nil, 1, Nil), 3, Node(Nil, 4, Nil)), Nil), 3), [2, 5])
         == PSet(Sentinel(Node(Node(Nil, 1, Node(Nil, 2, Nil)), 3, Node(Nil, 4, Node(Nil, 5, Nil))), Nil), 5)
  {
    var s3 := PSet(Sentinel(Node(Node(Nil, 1, Nil), 3, Node(Nil, 4, Nil)), Nil), 3);
    var s4 := PSet(Sentinel(Node(Node(Nil, 1, Node(Nil, 2, Nil)), 3, Node(Nil, 4, Nil)), Nil), 4);
    var s5 := PSet(Sentinel(Node(Node(Nil, 1, Node(Nil, 2, Nil)), 3, Node(Nil, 4, Node(Nil, 5, Nil))), Nil), 5);
    assert Insert(s3, 2).after == s4;
    assert Insert(s4, 5).after == s5;
    assert InsertAll(s3, [2, 5]) == InsertAll(s4, [5]);
    assert InsertAll(s4, [5]) == InsertAll(s5, []);
  }

  /** The structural orders of the five-key tree and of what erasing 3
      leaves of it. */
  lemma FiveKeyReads()
    ensures var left := Node(Nil, 1, Node(Nil, 2, Nil));
      var right := Node(Nil, 4, Node(Nil, 5, Nil));
      && InOrder(Node(left, 3, right)) == [1, 2, 3, 4, 5]
      && InOrder(Node(left, 4, right)) == [1, 2, 4, 4, 5]
  {
    assert InOrder(Node(Nil, 1, Node(Nil, 2, Nil))) == [1, 2];
    assert InOrder(Node(Nil, 4, Node(Nil, 5, Nil))) == [4, 5];
  }

  /** Erasing 3 from the five-key tree, at the tree level: the recursive
      erase of 4 splices in the leaf 5, and the graft puts the clone of 4
      over the original children of 3. */
  lemma FiveKeyErase()
    ensures var left := Node(Nil, 1, Node(Nil, 2, Nil));
      var right := Node(Nil, 4, Node(Nil, 5, Nil));
      var t := Node(left, 3, right);
      && Erasable(t, 3)
      && EraseAt(t, 3, 5).tree == Node(left, 4, right)
      && EraseAt(t, 3, 5).next == At(4)
  {
    var left := Node(Nil, 1, Node(Nil, 2, Nil));
    var right := Node(Nil, 4, Node(Nil, 5, Nil));
    var t := Node(left, 3, right);
    assert Keys(left) == {1, 2} && Keys(right) == {4, 5};
    assert BST(t);
    EraseTwoChildrenTree(t, 3, 5);
    assert Leftmost(right) == 4;
    assert SuccessorChild(t, 3) == Node(Nil, 5, Nil);
    assert ResetIn(right, Node(Nil, 5, Nil)) == right;
    assert CopyPath(t, 3, Node(Nil, 4, Nil), left, right) == Node(left, 4, right);
  }

  /** Erasing 3 from the set `TreeOfFive` builds: node 3 has two children;
      its successor 4 is erased from the right child of the NEW tree, but the
      graft puts the ORIGINAL right child (which still holds 4) under the
      clone of 4. The result holds five nodes for four keys: its structural
      order repeats 4. The returned iterator names 4 and the counter ends at
      4. */
  lemma TwoChildEraseDuplicatesSuccessor()
    ensures var s := PSet(Sentinel(Node(Node(Nil, 1, Node(Nil, 2, Nil)), 3, Node(Nil, 4, Node(Nil, 5, Nil))), Nil), 5);
      && InOrder(s.root.left) == [1, 2, 3, 4, 5]
      && Erasable(s.root.left, 3)
      && var r := Erase(s, At(3));
         InOrder(r.after.root.left) == [1, 2, 4, 4, 5] && r.next == At(4) && r.after.count == 4
  {
    FiveKeyReads();
    FiveKeyErase();
    var t := Node(Node(Nil, 1, Node(Nil, 2, Nil)), 3, Node(Nil, 4, Node(Nil, 5, Nil)));
    assert Erase(PSet(Sentinel(t, Nil), 5), At(3)).after.root.left == EraseAt(t, 3, 5).tree;
  }

  /** The same erase, seen through iteration: the set iterated 1, 2, 3, 4, 5;
      the result is no longer a search tree (4 sits in the right subtree of
      4), yet iteration visits 1, 2, 4, 5, because every `operator++` searches
      from the root and passes the stale 4 over. The damage is structural. */
  lemma TwoChildEraseLeavesStaleNode()
    ensures var s := PSet(Sentinel(Node(Node(Nil, 1, Node(Nil, 2, Nil)), 3, Node(Nil, 4, Node(Nil, 5, Nil))), Nil), 5);
      && Iterate(s) == [1, 2, 3, 4, 5]
      && Erasable(s.root.left, 3)
      && var r := Erase(s, At(3));
         !BST(r.after.root.left) && Iterate(r.after) == [1, 2, 4, 5]
  {
    FiveKeyReads();
    FiveKeyErase();
    FiveKeyIterates();
    var t := Node(Node(Nil, 1, Node(Nil, 2, Nil)), 3, Node(Nil, 4, Node(Nil, 5, Nil)));
    TreeOfFiveIsSearchTree();
    IterateIsInOrder(PSet(Sentinel(t, Nil), 5));
    var r := Erase(PSet(Sentinel(t, Nil), 5), At(3));
    assert r.after == PSet(Sentinel(EraseAt(t, 3, 5).tree, Nil), 4);
    assert 4 in Keys(r.after.root.left.right);
  }

  /** The tree `TreeOfFive` builds is a search tree. */
  lemma TreeOfFiveIsSearchTree()
    ensures BST(Node(Node(Nil, 1, Node(Nil, 2, Nil)), 3, Node(Nil, 4, Node(Nil, 5, Nil))))
  {
    assert Keys(Node(Nil, 1, Node(Nil, 2, Nil))) == {1, 2};
    assert Keys(Node(Nil, 4, Node(Nil, 5, Nil))) == {4, 5};
  }

  /** What `begin()` and `operator++` visit on the tree erasing 3 leaves:
      each step searches from the root, so the stale second 4 is passed over
      and the visit reads 1, 2, 4, 5. */
  lemma FiveKeyIterates()
    ensures Iterate(PSet(Sentinel(Node(Node(Nil, 1, Node(Nil, 2, Nil)), 4, Node(Nil, 4, Node(Nil, 5, Nil))), Nil), 4))
         == [1, 2, 4, 5]
  {
    var d := Node(Node(Nil, 1, Node(Nil, 2, Nil)), 4, Node(Nil, 4, Node(Nil, 5, Nil)));
    var s := PSet(Sentinel(d, Nil), 4);
    assert Keys(d) == {1, 2, 4, 5};
    assert Begin(s) == At(1);
    assert Next(d, 1) == At(2);
    assert Next(d, 2) == At(4);
    assert Next(d, 4) == At(5);
    assert Next(d, 5) == End;
    IterateFromStep(s, 5);
    IterateFromStep(s, 4);
    IterateFromStep(s, 2);
    IterateFromStep(s, 1);
  }

  /** Inserting 3, 1, 4 gives node 3 two leaf children. */
  lemma TreeOfThree()
    ensures InsertAll(EmptySet(), [3, 1, 4])
         == PSet(Sentinel(Node(Node(Nil, 1, Nil), 3, Node(Nil, 4, Nil)), Nil), 3)
  {
    var s1 := PSet(Sentinel(Node(Nil, 3, Nil), Nil), 1);
    var s2 := PSet(Sentinel(Node(Node(Nil, 1, Nil), 3, Nil), Nil), 2);
    var s3 := PSet(Sentinel(Node(Node(Nil, 1, Nil), 3, Node(Nil, 4, Nil)), Nil), 3);
    assert Insert(EmptySet(), 3).after == s1;
    assert Insert(s1, 1).after == s2;
    assert Insert(s2, 4).after == s3;
    assert InsertAll(EmptySet(), [3, 1, 4]) == InsertAll(s1, [1, 4]);
    assert InsertAll(s1, [1, 4]) == InsertAll(s2, [4]);
    assert InsertAll(s2, [4]) == InsertAll(s3, []);
  }

  /** Erasing 3 from 3(1, 4), at the tree level: the successor 4 is a leaf,
      so nothing is reset, and the clone of 4 is grafted over 1 and the
      original leaf 4. */
  lemma ThreeKeyErase()
    ensures var t := Node(Node(Nil, 1, Nil), 3, Node(Nil, 4, Nil));
      && Erasable(t, 3)
      && EraseAt(t, 3, 3).tree == Node(Node(Nil, 1, Nil), 4, Node(Nil, 4, Nil))
      && EraseAt(t, 3, 3).next == At(4)
  {
    var left := Node(Nil, 1, Nil);
    var right := Node(Nil, 4, Nil);
    var t := Node(left, 3, right);
    assert Keys(left) == {1} && Keys(right) == {4};
    assert BST(t);
    EraseTwoChildrenTree(t, 3, 3);
    assert Leftmost(right) == 4;
    assert SuccessorChild(t, 3) == Nil;
    assert ResetIn(right, Nil) == right;
    assert CopyPath(t, 3, Node(Nil, 4, Nil), left, right) == Node(left, 4, right);
  }

  /** The stale successor node makes a reachable key impossible to erase:
      after inserting 3, 1, 4 and erasing 3, the tree is 4(1, 4). `find(4)`
      reaches the root, which has two children, but `next` from it is the
      sentinel, since the only other 4 is not above 4. The source then casts
      the sentinel to a value node and copies a value it does not hold; the
      model has no erase there. */
  lemma StaleNodeBlocksErase()
    ensures var s := InsertAll(EmptySet(), [3, 1, 4]);
      && Erasable(s.root.left, 3)
      && var d := Erase(s, At(3)).after;
         && d.root.left == Node(Node(Nil, 1, Nil), 4, Node(Nil, 4, Nil))
         && FindIn(d, 4) == At(4)
         && Advance(d, At(4)) == End
         && !Erasable(d.root.left, 4)
  {
    TreeOfThree();
    ThreeKeyErase();
    var t := Node(Node(Nil, 1, Nil), 3, Node(Nil, 4, Nil));
    var e := Node(Node(Nil, 1, Nil), 4, Node(Nil, 4, Nil));
    assert Erase(PSet(Sentinel(t, Nil), 3), At(3)).after.root.left == e;
    assert Lookup(e, 4) == e && HasTwoChildren(e);
    assert Next(e, 4) == End;
  }

  /** Inserting 10, 4, 1, 5 into an empty set builds 10(4(1, 5), -). */
  lemma TreeOfFour()
    ensures InsertAll(EmptySet(), [10, 4, 1, 5])
         == PSet(Sentinel(Node(Node(Node(Nil, 1, Nil), 4, Node(Nil, 5, Nil)), 10, Nil), Nil), 4)
  {
    var s1 := PSet(Sentinel(Node(Nil, 10, Nil), Nil), 1);
    var s2 := PSet(Sentinel(Node(Node(Nil, 4, Nil), 10, Nil), Nil), 2);
    var s3 := PSet(Sentinel(Node(Node(Node(Nil, 1, Nil), 4, Nil), 10, Nil), Nil), 3);
    var s4 := PSet(Sentinel(Node(Node(Node(Nil, 1, Nil), 4, Node(Nil, 5, Nil)), 10, Nil), Nil), 4);
    assert Insert(EmptySet(), 10).after == s1;
    assert Insert(s1, 4).after == s2;
    assert Insert(s2, 1).after == s3;
    assert Insert(s3, 5).after == s4;
    assert InsertAll(EmptySet(), [10, 4, 1, 5]) == InsertAll(s1, [4, 1, 5]);
    assert InsertAll(s1, [4, 1, 5]) == InsertAll(s2, [1, 5]);
    assert InsertAll(s2, [1, 5]) == InsertAll(s3, [5]);
    assert InsertAll(s3, [5]) == InsertAll(s4, []);
  }

  /** Erasing 4 from 10(4(1, 5), -): the successor 5 is a leaf, and its clone
      is grafted over 1 and the original leaf 5, giving 10(5(1, 5), -). */
  lemma FourKeyFirstErase()
    ensures var t := Node(Node(Node(Nil, 1, Nil), 4, Node(Nil, 5, Nil)), 10, Nil);
      && Erasable(t, 4)
      && EraseAt(t, 4, 4).tree == Node(Node(Node(Nil, 1, Nil), 5, Node(Nil, 5, Nil)), 10, Nil)
      && EraseAt(t, 4, 4).count == 3
  {
    var left := Node(Nil, 1, Nil);
    var right := Node(Nil, 5, Nil);
    var node := Node(left, 4, right);
    var t := Node(node, 10, Nil);
    assert Keys(node) == {1, 4, 5};
    assert BST(t);
    EraseTwoChildrenTree(t, 4, 4);
    assert Lookup(t, 4) == node;
    assert Leftmost(right) == 5;
    assert SuccessorChild(t, 4) == Nil;
    assert ResetIn(right, Nil) == right;
    assert ResetIn(left, Nil) == left;
    assert CopyPath(t, 4, Node(Nil, 5, Nil), left, right) == Node(Node(left, 5, right), 10, Nil);
    DecrFour();
  }

  lemma DecrFour()
    ensures Decr(4) == 3
  {
  }

  /** Erasing 5 from 10(5(1, 5), -), which is no longer a search tree: `next`
      from the upper 5 searches from the root and finds 10, not the stale 5
      below it. Erasing 10 first splices 5(1, 5) into the root's place and
      strips it to a leaf; the clone of 10 is then grafted over 1 and the
      stripped leaf, giving 10(1, 5). */
  lemma FourKeySecondErase()
    ensures var d := Node(Node(Node(Nil, 1, Nil), 5, Node(Nil, 5, Nil)), 10, Nil);
      && Erasable(d, 5)
      && EraseAt(d, 5, 3).tree == Node(Node(Nil, 1, Nil), 10, Node(Nil, 5, Nil))
  {
    var left := Node(Nil, 1, Nil);
    var right := Node(Nil, 5, Nil);
    var node := Node(left, 5, right);
    var d := Node(node, 10, Nil);
    assert Lookup(d, 5) == node && HasTwoChildren(node);
    assert Next(d, 5) == At(10);
    assert Lookup(d, 10) == d && HasOneChild(d);
    EraseAtSplice(d, 10, 3);
    assert CopyPath(d, 10, node, Nil, Nil) == right;
    assert Erasable(d, 5);
    var inner := EraseAt(d, 10, 3);
    assert inner.tree == right && inner.cleared == node;
    assert ResetIn(left, node) == left;
    assert ResetIn(right, node) == right;
    assert CopyPath(right, 5, Node(Nil, 10, Nil), left, right) == Node(left, 10, right);
  }

  /** On a version that is no longer a search tree, the root-relative
      searches and steps give answers the search-tree contracts rule out.
      After inserting 10, 4, 1, 5 and erasing 4 and then 5, the tree is
      10(1, 5): `find(5)` misses the 5 it holds, `lower_bound(2)` and
      `upper_bound(1)` skip 5 for 10, `++` from 1 lands on 10, `--end()`
      names 5 although 10 is larger, and the forward visit reads 1, 10. */
  lemma NonSearchTreeReads()
    ensures var s := InsertAll(EmptySet(), [10, 4, 1, 5]);
      && Erasable(s.root.left, 4)
      && var d := Erase(s, At(4)).after;
         && FindIn(d, 5) == At(5)
         && Erasable(d.root.left, 5)
         && var e := Erase(d, At(5)).after;
            && e == PSet(Sentinel(Node(Node(Nil, 1, Nil), 10, Node(Nil, 5, Nil)), Nil), 2)
            && 5 in Keys(e.root.left)
            && !BST(e.root.left)
            && FindIn(e, 5) == End
            && LowerBoundIn(e, 2) == At(10)
            && UpperBoundIn(e, 1) == At(10)
            && Advance(e, At(1)) == At(10)
            && Retreat(e, End) == At(5)
            && Iterate(e) == [1, 10]
  {
    TreeOfFour();
    FourKeyFirstErase();
    FourKeySecondErase();
    var t := Node(Node(Node(Nil, 1, Nil), 4, Node(Nil, 5, Nil)), 10, Nil);
    var d := PSet(Sentinel(Node(Node(Node(Nil, 1, Nil), 5, Node(Nil, 5, Nil)), 10, Nil), Nil), 3);
    assert Erase(PSet(Sentinel(t, Nil), 4), At(4)).after == d;
    assert Find(d.root.left, 5) == At(5);
    var e := PSet(Sentinel(Node(Node(Nil, 1, Nil), 10, Node(Nil, 5, Nil)), Nil), 2);
    DecrThree();
    assert Erase(d, At(5)).after == e;
    NonSearchTreeSteps();
  }

  lemma DecrThree()
    ensures Decr(3) == 2
  {
  }

  /** The reads of `NonSearchTreeReads` on the literal tree 10(1, 5). */
  lemma NonSearchTreeSteps()
    ensures var e := PSet(Sentinel(Node(Node(Nil, 1, Nil), 10, Node(Nil, 5, Nil)), Nil), 2);
      && 5 in Keys(e.root.left)
      && !BST(e.root.left)
      && FindIn(e, 5) == End
      && LowerBoundIn(e, 2) == At(10)
      && UpperBoundIn(e, 1) == At(10)
      && Advance(e, At(1)) == At(10)
      && Retreat(e, End) == At(5)
      && Iterate(e) == [1, 10]
  {
    var t := Node(Node(Nil, 1, Nil), 10, Node(Nil, 5, Nil));
    var e := PSet(Sentinel(t, Nil), 2);
    assert Keys(t) == {1, 5, 10};
    assert Begin(e) == At(1);
    assert Next(t, 1) == At(10);
    assert Next(t, 10) == End;
    IterateFromStep(e, 10);
    IterateFromStep(e, 1);
  }

  /** The in-place reset of the spliced child reaches every version sharing
      it: take `b` as a copy of {1, 2, 3} and erase 1 from the original; node
      2 is shared by both, and once its children are overwritten `b` reads
      as {1, 2}. */
  lemma EraseCorruptsSnapshot()
    ensures var a := InsertAll(EmptySet(), [1, 2, 3]);
      var b := Copy(a);
      && InOrder(b.root.left) == [1, 2, 3]
      && Erasable(a.root.left, 1)
      && var r := Erase(a, At(1));
         r.cleared == Node(Nil, 2, Node(Nil, 3, Nil)) && InOrder(ResetIn(b.root.left, r.cleared)) == [1, 2]
  {
    SpineOfThree();
    SpineReads();
    var t := Node(Nil, 1, Node(Nil, 2, Node(Nil, 3, Nil)));
    var c := Node(Nil, 2, Node(Nil, 3, Nil));
    EraseAtSplice(t, 1, 3);
    assert Erase(PSet(Sentinel(t, Nil), 3), At(1)).cleared == c;
    assert ResetIn(t, c) == Node(Nil, 1, Node(Nil, 2, Nil));
  }

  /** The search tree 1 < 10 < 20 < 25 < 30 < 35 < 50 used below: 10 has two
      children and its successor 20 has the single child 30, itself with two
      children. */
  lemma SevenKeyTree()
    ensures var c := Node(Node(Nil, 25, Nil), 30, Node(Nil, 35, Nil));
      var t := Node(Node(Nil, 1, Nil), 10, Node(Node(Nil, 20, c), 50, Nil));
      && BST(t)
      && InOrder(t) == [1, 10, 20, 25, 30, 35, 50]
  {
    SevenKeyOrdered();
    SevenKeyReads();
  }

  /** `SevenKeyTree` is a search tree. */
  lemma SevenKeyOrdered()
    ensures var c := Node(Node(Nil, 25, Nil), 30, Node(Nil, 35, Nil));
      BST(Node(Node(Nil, 1, Nil), 10, Node(Node(Nil, 20, c), 50, Nil)))
  {
    var c := Node(Node(Nil, 25, Nil), 30, Node(Nil, 35, Nil));
    var right := Node(Node(Nil, 20, c), 50, Nil);
    assert Keys(c) == {25, 30, 35};
    assert BST(c);
    assert Keys(Node(Nil, 20, c)) == {20, 25, 30, 35};
    assert BST(Node(Nil, 20, c));
    assert Keys(right) == {20, 25, 30, 35, 50};
  }

  /** The in-order sequence of `SevenKeyTree`. */
  lemma SevenKeyReads()
    ensures var c := Node(Node(Nil, 25, Nil), 30, Node(Nil, 35, Nil));
      InOrder(Node(Node(Nil, 1, Nil), 10, Node(Node(Nil, 20, c), 50, Nil))) == [1, 10, 20, 25, 30, 35, 50]
  {
    var c := Node(Node(Nil, 25, Nil), 30, Node(Nil, 35, Nil));
    assert InOrder(c) == [25, 30, 35];
    assert InOrder(Node(Node(Nil, 20, c), 50, Nil)) == [20, 25, 30, 35, 50];
  }

  /** In `SevenKeyTree` the successor of 10 is 20, a node with one child, so
      erasing 10 is defined. */
  lemma SevenKeySuccessor()
    ensures var c := Node(Node(Nil, 25, Nil), 30, Node(Nil, 35, Nil));
      var t := Node(Node(Nil, 1, Nil), 10, Node(Node(Nil, 20, c), 50, Nil));
      && Next(t, 10) == At(20)
      && Lookup(t, 20) == Node(Nil, 20, c)
      && Erasable(t, 20)
      && Erasable(t, 10)
  {
    var c := Node(Node(Nil, 25, Nil), 30, Node(Nil, 35, Nil));
    var t := Node(Node(Nil, 1, Nil), 10, Node(Node(Nil, 20, c), 50, Nil));
    assert Next(t, 10) == At(20);
    assert Erasable(t, 20);
  }

  /** Once node 30 has lost its children, the right child of 10 reads 20, 30,
      50; the left child is untouched. */
  lemma SevenKeyReset()
    ensures var c := Node(Node(Nil, 25, Nil), 30, Node(Nil, 35, Nil));
      && ResetIn(Node(Nil, 1, Nil), c) == Node(Nil, 1, Nil)
      && ResetIn(Node(Node(Nil, 20, c), 50, Nil), c)
         == Node(Node(Nil, 20, Node(Nil, 30, Nil)), 50, Nil)
  {
    var c := Node(Node(Nil, 25, Nil), 30, Node(Nil, 35, Nil));
    assert ResetIn(Node(Nil, 20, c), c) == Node(Nil, 20, Node(Nil, 30, Nil));
  }

  /** Erasing 10 from `SevenKeyTree`, at the tree level: the clone of 20
      over the left child 1 and the reset right child. */
  lemma SevenKeyErase()
    ensures var c := Node(Node(Nil, 25, Nil), 30, Node(Nil, 35, Nil));
      var t := Node(Node(Nil, 1, Nil), 10, Node(Node(Nil, 20, c), 50, Nil));
      && Erasable(t, 10)
      && EraseAt(t, 10, 7).tree
         == Node(Node(Nil, 1, Nil), 20, Node(Node(Nil, 20, Node(Nil, 30, Nil)), 50, Nil))
      && EraseAt(t, 10, 7).cleared == c
      && EraseAt(t, 10, 7).next == At(20)
  {
    SevenKeyTree();
    SevenKeyReset();
    var c := Node(Node(Nil, 25, Nil), 30, Node(Nil, 35, Nil));
    var left := Node(Nil, 1, Nil);
    var right := Node(Node(Nil, 20, c), 50, Nil);
    var t := Node(left, 10, right);
    EraseTwoChildrenTree(t, 10, 7);
    assert Leftmost(right) == 20;
    assert SuccessorChild(t, 10) == c;
    var reset := Node(Node(Nil, 20, Node(Nil, 30, Nil)), 50, Nil);
    assert CopyPath(t, 10, Node(Nil, 20, Nil), left, reset) == Node(left, 20, reset);
  }

  /** The structural order of the tree `SevenKeyErase` builds holds 20 twice
      and lacks 25 and 35. */
  lemma SevenKeyEraseReads()
    ensures InOrder(Node(Node(Nil, 1, Nil), 20, Node(Node(Nil, 20, Node(Nil, 30, Nil)), 50, Nil)))
         == [1, 20, 20, 30, 50]
  {
    assert InOrder(Node(Node(Nil, 20, Node(Nil, 30, Nil)), 50, Nil)) == [20, 30, 50];
  }

  /** What `begin()` and `operator++` visit on the tree erasing 10 leaves:
      the stale second 20 is passed over, 25 and 35 are gone. */
  lemma SevenKeyEraseIterates()
    ensures Iterate(PSet(Sentinel(Node(Node(Nil, 1, Nil), 20, Node(Node(Nil, 20, Node(Nil, 30, Nil)), 50, Nil)), Nil), 6))
         == [1, 20, 30, 50]
  {
    var d := Node(Node(Nil, 1, Nil), 20, Node(Node(Nil, 20, Node(Nil, 30, Nil)), 50, Nil));
    var s := PSet(Sentinel(d, Nil), 6);
    assert Keys(d) == {1, 20, 30, 50};
    assert Begin(s) == At(1);
    assert Next(d, 1) == At(20);
    assert Next(d, 20) == At(30);
    assert Next(d, 30) == At(50);
    assert Next(d, 50) == End;
    IterateFromStep(s, 50);
    IterateFromStep(s, 30);
    IterateFromStep(s, 20);
    IterateFromStep(s, 1);
  }

  /** The two-child branch reads the successor's subtree after the recursive
      erase has reset it in place. Erasing 10 from `SevenKeyTree` moves its
      successor 20, whose right child 30 is spliced in and stripped of 25
      and 35; the graft then reattaches the original right child of 10, which
      now reads 20, 30 (no 25, 35) under 50. */
  lemma TwoChildEraseDropsSuccessorGrandchildren()
    ensures var c := Node(Node(Nil, 25, Nil), 30, Node(Nil, 35, Nil));
      var t := Node(Node(Nil, 1, Nil), 10, Node(Node(Nil, 20, c), 50, Nil));
      var s := PSet(Sentinel(t, Nil), 7);
      && Erasable(t, 10)
      && var r := Erase(s, At(10));
         InOrder(r.after.root.left) == [1, 20, 20, 30, 50] && r.cleared == c && r.next == At(20)
  {
    SevenKeyErase();
    SevenKeyEraseReads();
    var c := Node(Node(Nil, 25, Nil), 30, Node(Nil, 35, Nil));
    var t := Node(Node(Nil, 1, Nil), 10, Node(Node(Nil, 20, c), 50, Nil));
    assert Erase(PSet(Sentinel(t, Nil), 7), At(10)).after.root.left == EraseAt(t, 10, 7).tree;
  }

  /** The same erase, seen through iteration: the set iterated over seven
      keys; afterwards iteration visits 1, 20, 30, 50, four keys, while the
      counter says six. */
  lemma TwoChildEraseLosesKeysFromIteration()
    ensures var c := Node(Node(Nil, 25, Nil), 30, Node(Nil, 35, Nil));
      var s := PSet(Sentinel(Node(Node(Nil, 1, Nil), 10, Node(Node(Nil, 20, c), 50, Nil)), Nil), 7);
      && Iterate(s) == [1, 10, 20, 25, 30, 35, 50]
      && Erasable(s.root.left, 10)
      && var r := Erase(s, At(10));
         Iterate(r.after) == [1, 20, 30, 50] && Size(r.after) == 6
  {
    SevenKeyErase();
    SevenKeyEraseIterates();
    SevenKeyTree();
    var c := Node(Node(Nil, 25, Nil), 30, Node(Nil, 35, Nil));
    var t := Node(Node(Nil, 1, Nil), 10, Node(Node(Nil, 20, c), 50, Nil));
    IterateIsInOrder(PSet(Sentinel(t, Nil), 7));
    var r := Erase(PSet(Sentinel(t, Nil), 7), At(10));
    assert r.after == PSet(Sentinel(EraseAt(t, 10, 7).tree, Nil), 6);
  }

  // ------------------------------------------------ erase, corrected

  /** The 0/1-child case as intended: the surviving child keeps its own
      children (they are passed as the ends of the graft). */
  function SpliceOut(t: Tree, k: int): Tree
    requires Lookup(t, k).Node? && !HasTwoChildren(Lookup(t, k))
  {
    var c := OnlyChild(Lookup(t, k));
    if c.Nil? then CopyPath(t, k, Nil, Nil, Nil)
    else CopyPath(t, k, c, c.left, c.right)
  }

  /** The corrected erase at a present key of a search tree: with two
      children, the successor (the leftmost key of the right child) takes the
      node's place with the node's left child and the right child WITHOUT the
      successor. */
  function EraseFixedAt(t: Tree, k: int): Tree
    requires BST(t) && k in Keys(t)
  {
    LookupFindsPresentKeys(t, k);
    var node := Lookup(t, k);
    if !HasTwoChildren(node) then SpliceOut(t, k)
    else
      LookupIsBST(t, k);
      LookupLeftmost(node.right);
      var m := Leftmost(node.right);
      CopyPath(t, k, Node(Nil, m, Nil), node.left, SpliceOut(node.right, m))
  }

  lemma SpliceOutCorrect(t: Tree, k: int)
    requires BST(t) && Lookup(t, k).Node? && !HasTwoChildren(Lookup(t, k))
    ensures BST(SpliceOut(t, k))
    ensures Keys(SpliceOut(t, k)) == Keys(t) - {k}
  {
    var node := Lookup(t, k);
    var c := OnlyChild(node);
    LookupIsBST(t, k);
    if c.Nil? {
      CopyPathOrdered(t, k, Nil, Nil, Nil);
      CopyPathKeys(t, k, Nil, Nil, Nil);
      assert Keys(node) == {k};
    } else {
      GraftOwnChildren(c);
      assert BST(c);
      forall x | x in Keys(c) ensures PathFits(t, k, x) {
        SubtreeKeysFit(t, k, x);
      }
      CopyPathOrdered(t, k, c, c.left, c.right);
      CopyPathKeys(t, k, c, c.left, c.right);
      assert k !in Keys(c);
    }
  }

  /** The corrected replacement for a node with two children: its successor
      `m` over its left child and its right child without `m`. It is a search
      tree holding the node's keys except the node's own. */
  lemma SuccessorReplacement(node: Tree)
    requires node.Node? && BST(node) && node.left.Node? && node.right.Node?
    ensures var m := Leftmost(node.right);
      Lookup(node.right, m).Node? && !HasTwoChildren(Lookup(node.right, m))
    ensures var m := Leftmost(node.right);
      var g := Node(node.left, m, SpliceOut(node.right, m));
      BST(g) && Keys(g) == Keys(node) - {node.key}
  {
    var right := node.right;
    LookupLeftmost(right);
    LeftmostIsMinimum(right);
    var m := Leftmost(right);
    SpliceOutCorrect(right, m);
    var rest := SpliceOut(right, m);
    var g := Node(node.left, m, rest);
    assert node.key < m;
    assert forall x :: x in Keys(node.left) ==> x < m by {
      forall x | x in Keys(node.left) ensures x < m {
        assert x < node.key;
      }
    }
    assert forall x :: x in Keys(rest) ==> m < x by {
      forall x | x in Keys(rest) ensures m < x {
        assert x in Keys(right) && x != m;
      }
    }
    assert BST(g);
    SwapPivotKeys(Keys(node.left), Keys(right), node.key, m);
  }

  /** Replacing the pivot `k` by a key `m` taken out of the right side keeps
      every other key. */
  lemma SwapPivotKeys(l: set<int>, r: set<int>, k: int, m: int)
    requires k !in l && k !in r && m in r
    ensures l + {m} + (r - {m}) == l + {k} + r - {k}
  {
  }

  /** The corrected erase removes exactly the key and keeps search-tree order. */
  lemma EraseFixedCorrect(t: Tree, k: int)
    requires BST(t) && k in Keys(t)
    ensures BST(EraseFixedAt(t, k))
    ensures Keys(EraseFixedAt(t, k)) == Keys(t) - {k}
  {
    LookupFindsPresentKeys(t, k);
    var node := Lookup(t, k);
    if !HasTwoChildren(node) {
      SpliceOutCorrect(t, k);
    } else {
      LookupIsBST(t, k);
      SuccessorReplacement(node);
      var m := Leftmost(node.right);
      var rest := SpliceOut(node.right, m);
      assert EraseFixedAt(t, k) == CopyPath(t, k, Node(Nil, m, Nil), node.left, rest);
      var g := Graft(Node(Nil, m, Nil), node.left, rest);
      assert g == Node(node.left, m, rest);
      forall x | x in Keys(g) ensures PathFits(t, k, x) {
        SubtreeKeysFit(t, k, x);
      }
      CopyPathOrdered(t, k, Node(Nil, m, Nil), node.left, rest);
      CopyPathKeys(t, k, Node(Nil, m, Nil), node.left, rest);
    }
  }

  /** The corrected `erase(it)`: the end iterator changes nothing; otherwise
      the key is removed, the counter drops by one and the old successor is
      returned. */
  function EraseFixed(s: PSet, it: Iter): (r: EraseResult)
    requires BST(s.root.left)
    requires it.End? || it.key in Keys(s.root.left)
    ensures it.End? ==> r == EraseResult(s, End, Nil)
    ensures r.cleared == Nil && forall v :: ResetIn(v, r.cleared) == v
    ensures it.At? ==>
      && BST(r.after.root.left)
      && Keys(r.after.root.left) == Keys(s.root.left) - {it.key}
      && r.after.count == Decr(s.count)
      && IsSuccessor(Keys(s.root.left), it.key, r.next)
      && (r.next.At? ==> r.next.key in Keys(r.after.root.left))
  {
    if it.End? then EraseResult(s, End, Nil)
    else
      EraseFixedCorrect(s.root.left, it.key);
      NextCorrect(s.root.left, it.key);
      var t := EraseFixedAt(s.root.left, it.key);
      EraseResult(PSet(Sentinel(t, s.root.right), Decr(s.count)), Next(s.root.left, it.key), Nil)
  }

  /** The corrected erase handles the input `StaleNodeBlocksErase` gets
      stuck on: from {3, 1, 4}, erasing 3 and then 4 leaves {1}. */
  lemma EraseFixedErasesBoth()
    ensures var s := InsertAll(EmptySet(), [3, 1, 4]);
      && BST(s.root.left) && 3 in Keys(s.root.left)
      && var a := EraseFixed(s, At(3)).after;
         && Keys(a.root.left) == {1, 4}
         && Keys(EraseFixed(a, At(4)).after.root.left) == {1}
  {
    TreeOfThree();
    var t := Node(Node(Nil, 1, Nil), 3, Node(Nil, 4, Nil));
    assert Keys(t) == {1, 3, 4};
    assert BST(t);
  }

  /** The in-order sequences of the trees the corrected erase leaves below. */
  lemma FixedReads()
    ensures InOrder(Node(Nil, 2, Node(Nil, 3, Nil))) == [2, 3]
    ensures InOrder(Node(Node(Nil, 1, Node(Nil, 2, Nil)), 4, Node(Nil, 5, Nil))) == [1, 2, 4, 5]
    ensures var c := Node(Node(Nil, 25, Nil), 30, Node(Nil, 35, Nil));
      InOrder(Node(Node(Nil, 1, Nil), 20, Node(c, 50, Nil))) == [1, 20, 25, 30, 35, 50]
  {
    assert InOrder(Node(Nil, 1, Node(Nil, 2, Nil))) == [1, 2];
    assert InOrder(Node(Node(Nil, 25, Nil), 30, Node(Nil, 35, Nil))) == [25, 30, 35];
  }

  /** The two inputs above, erased by the corrected definition. */
  lemma EraseFixedOnWitnesses()
    ensures InOrder(EraseFixedAt(Node(Nil, 1, Node(Nil, 2, Node(Nil, 3, Nil))), 1)) == [2, 3]
    ensures InOrder(EraseFixedAt(Node(Node(Nil, 1, Node(Nil, 2, Nil)), 3, Node(Nil, 4, Node(Nil, 5, Nil))), 3))
         == [1, 2, 4, 5]
  {
    FixedReads();
    var spine := Node(Nil, 1, Node(Nil, 2, Node(Nil, 3, Nil)));
    assert EraseFixedAt(spine, 1) == Node(Nil, 2, Node(Nil, 3, Nil));
    var left := Node(Nil, 1, Node(Nil, 2, Nil));
    var right := Node(Nil, 4, Node(Nil, 5, Nil));
    var t := Node(left, 3, right);
    assert Leftmost(right) == 4;
    assert SpliceOut(right, 4) == Node(Nil, 5, Nil);
    assert EraseFixedAt(t, 3) == Node(left, 4, Node(Nil, 5, Nil));
  }

  /** The seven-key input above, erased by the corrected definition: the
      successor's child keeps its children. */
  lemma EraseFixedOnSevenKeys()
    ensures var c := Node(Node(Nil, 25, Nil), 30, Node(Nil, 35, Nil));
      var t := Node(Node(Nil, 1, Nil), 10, Node(Node(Nil, 20, c), 50, Nil));
      BST(t) && 10 in Keys(t) && InOrder(EraseFixedAt(t, 10)) == [1, 20, 25, 30, 35, 50]
  {
    SevenKeyTree();
    FixedReads();
    var c := Node(Node(Nil, 25, Nil), 30, Node(Nil, 35, Nil));
    var left := Node(Nil, 1, Nil);
    var right := Node(Node(Nil, 20, c), 50, Nil);
    var t := Node(left, 10, right);
    assert 10 in Keys(t);
    assert Leftmost(right) == 20;
    assert SpliceOut(right, 20) == Node(c, 50, Nil);
    assert EraseFixedAt(t, 10) == Node(left, 20, Node(c, 50, Nil));
  }

  // ------------------------------------------------ the element counter

  const MODULUS: int := SIZE_MAX + 1

  /** The counter agrees with the number of keys, modulo 2^64. */
  ghost predicate CountAgrees(s: PSet) {
    s.count == |Keys(s.root.left)| % MODULUS
  }

  /** A copy of a one-element set reports size 0; clearing it still reports
      size 1; swapping it with an empty set leaves the empty tree with size 1;
      erasing the element from the copy wraps the counter to 2^64 - 1. */
  lemma CounterNotCarried()
    ensures var a := InsertAll(EmptySet(), [1]);
      && CountAgrees(a)
      && Copy(a).count == 0 && Keys(Copy(a).root.left) == {1}
      && !CountAgrees(Copy(a))
      && IsEmpty(Clear(a)) && Clear(a).count == 1
      && !CountAgrees(Clear(a))
      && CountAgrees(EmptySet()) && !CountAgrees(Swap(a, EmptySet()).0)
      && Erasable(Copy(a).root.left, 1)
      && Erase(Copy(a), At(1)).after.count == SIZE_MAX
  {
    var a := InsertAll(EmptySet(), [1]);
    assert a.root.left == Node(Nil, 1, Nil);
    assert Keys(a.root.left) == {1};
  }

  /** The move constructor and both assignments lose the counter the same
      way: moving a one-element set gives a new instance of size 0 and leaves
      the empty source at size 1; assigning it, by copy or by move, to an
      empty set keeps size 0 over one key. */
  lemma MoveAndAssignDropCounter()
    ensures var a := InsertAll(EmptySet(), [1]);
      var e := EmptySet();
      && CountAgrees(a) && CountAgrees(e)
      && !CountAgrees(Move(a).0) && !CountAgrees(Move(a).1)
      && !CountAgrees(Assign(e, a))
      && !CountAgrees(MoveAssign(e, a).0) && !CountAgrees(MoveAssign(e, a).1)
  {
    var a := InsertAll(EmptySet(), [1]);
    assert a.root.left == Node(Nil, 1, Nil);
    assert Keys(a.root.left) == {1};
  }

  /** The copy constructor as intended: the counter travels with the tree. */
  function CopyFixed(s: PSet): (r: PSet)
    ensures CountAgrees(s) ==> CountAgrees(r)
    ensures r.root == s.root
  {
    PSet(s.root, s.count)
  }

  /** The move constructor as intended: the counter moves with the tree and
      the emptied source reports size 0. */
  function MoveFixed(source: PSet): (r: (PSet, PSet))
    ensures CountAgrees(source) ==> CountAgrees(r.0)
    ensures CountAgrees(r.1) && Valid(r.1) && IsEmpty(r.1)
    ensures r.0.root == source.root
  {
    (PSet(source.root, source.count), PSet(Sentinel(Nil, Nil), 0))
  }

  /** Copy assignment as intended: the counter is taken with the tree. */
  function AssignFixed(self: PSet, other: PSet): (r: PSet)
    ensures CountAgrees(other) ==> CountAgrees(r)
    ensures r.root == other.root
  {
    PSet(other.root, other.count)
  }

  /** Move assignment as intended: the counter is taken with the tree and
      the emptied source reports size 0. */
  function MoveAssignFixed(self: PSet, other: PSet): (r: (PSet, PSet))
    ensures CountAgrees(other) ==> CountAgrees(r.0)
    ensures CountAgrees(r.1) && Valid(r.1) && IsEmpty(r.1)
    ensures r.0.root == other.root
  {
    (PSet(other.root, other.count), PSet(Sentinel(Nil, Nil), 0))
  }

  /** `swap` as intended: the counters change places with the trees. */
  function SwapFixed(a: PSet, b: PSet): (r: (PSet, PSet))
    ensures CountAgrees(a) && CountAgrees(b) ==> CountAgrees(r.0) && CountAgrees(r.1)
    ensures r.0.root == b.root && r.1.root == a.root
  {
    (PSet(b.root, b.count), PSet(a.root, a.count))
  }

  /** `clear` as intended: the counter is reset with the tree. */
  function ClearFixed(s: PSet): (r: PSet)
    ensures CountAgrees(r) && (Valid(s) ==> IsEmpty(r))
  {
    PSet(Sentinel(Nil, s.root.right), 0)
  }

  lemma WrapShift(n: int, d: int)
    ensures ((n % MODULUS) + d) % MODULUS == (n + d) % MODULUS
  {
    var q := n / MODULUS;
    assert n == q * MODULUS + n % MODULUS;
  }

  /** The counter keeps agreeing with the number of keys through `insert`. */
  lemma InsertKeepsCountAgreeing(s: PSet, k: int)
    requires BST(s.root.left) && CountAgrees(s)
    ensures CountAgrees(Insert(s, k).after)
  {
    if k in Keys(s.root.left) {
      InsertPresent(s, k);
    } else {
      InsertAbsent(s, k);
      var n := |Keys(s.root.left)|;
      assert |Keys(Insert(s, k).after.root.left)| == n + 1;
      WrapShift(n, 1);
    }
  }

  /** With the corrected erase, the counter keeps agreeing with the number of
      keys through `erase` too. */
  lemma EraseFixedKeepsCountAgreeing(s: PSet, k: int)
    requires BST(s.root.left) && CountAgrees(s) && k in Keys(s.root.left)
    ensures CountAgrees(EraseFixed(s, At(k)).after)
  {
    var n := |Keys(s.root.left)|;
    var r := EraseFixed(s, At(k)).after;
    assert Keys(r.root.left) == Keys(s.root.left) - {k};
    assert |Keys(s.root.left) - {k}| == n - 1;
    assert r.count == Decr(s.count) == (s.count - 1) % MODULUS;
    WrapShift(n, -1);
  }

  // ------------------------------------------------ insert of a present key

  /** Inserting a key that is already there returns the end iterator, not an
      iterator to the element. */
  lemma InsertPresentReturnsEnd()
    ensures var a := InsertAll(EmptySet(), [1]);
      FindIn(a, 1) == At(1) && Insert(a, 1).it == End
  {
    var a := InsertAll(EmptySet(), [1]);
    assert a.root.left == Node(Nil, 1, Nil);
  }

  /** `insert` as intended: on a present key the iterator is the one `find`
      gives, so the returned iterator always names the key. */
  function InsertFixed(s: PSet, k: int): (r: InsertResult)
    ensures r.it == At(k)
    ensures BST(s.root.left) ==> (r.inserted <==> k !in Keys(s.root.left))
    ensures BST(s.root.left) ==> Keys(r.after.root.left) == Keys(s.root.left) + {k}
  {
    var found := Find(s.root.left, k);
    assert BST(s.root.left) ==> (found == End <==> k !in Keys(s.root.left)) by {
      if BST(s.root.left) { FindCorrect(s.root.left, k); }
    }
    if found != End then InsertResult(s, found, false)
    else
      assert BST(s.root.left) ==> Keys(Insert(s, k).after.root.left) == Keys(s.root.left) + {k} by {
        if BST(s.root.left) { InsertAbsent(s, k); }
      }
      Insert(s, k)
  }
}

=== FILE: persistent_set.dfy ===
/** The container shell `persistent_set`: a keyless sentinel whose left child
    is the tree, a `size_t` element counter, and the operations built on the
    path copy and the read-only descents. Every operation returns the new
    version; the argument version is a value and stays as it was. */
module PersistentSets {
  import opened Trees
  import opened CopyPaths
  import opened Search

  const SIZE_MAX: int := 0xFFFF_FFFF_FFFF_FFFF

  /** `size_t`: an unsigned 64-bit counter. */
  type SizeT = n: int | 0 <= n <= SIZE_MAX

  /** `++size_`, wrapping to zero past the largest value. */
  function Incr(n: SizeT): (r: SizeT)
    ensures r == (n + 1) % (SIZE_MAX + 1)
  {
    if n == SIZE_MAX then 0 else n + 1
  }

  /** `--size_`, wrapping to the largest value below zero. */
  function Decr(n: SizeT): (r: SizeT)
    ensures r == (n - 1) % (SIZE_MAX + 1)
    ensures Incr(r) == n
    ensures Decr(Incr(r)) == r
  {
    if n == 0 then SIZE_MAX else n - 1
  }

  /** The root sentinel: keyless, owned by value; `left` holds the tree. */
  datatype Sentinel = Sentinel(left: Tree, right: Tree)

  /** A container instance: its sentinel and its own `size_` counter. */
  datatype PSet = PSet(root: Sentinel, count: SizeT)

  /** `m` is the smallest key of `t`. */
  ghost predicate LeastKey(t: Tree, m: int) {
    m in Keys(t) && forall x :: x in Keys(t) ==> m <= x
  }

  /** `m` is the largest key of `t`. */
  ghost predicate GreatestKey(t: Tree, m: int) {
    m in Keys(t) && forall x :: x in Keys(t) ==> x <= m
  }

  /** The sentinel is only ever linked on its left. */
  predicate Valid(s: PSet) {
    s.root.right.Nil?
  }

  /** The default-constructed set. */
  function EmptySet(): (s: PSet)
    ensures Valid(s) && InOrder(s.root.left) == [] && s.count == 0
  {
    PSet(Sentinel(Nil, Nil), 0)
  }

  /** `size()`: the counter, which is not derived from the tree. */
  function Size(s: PSet): SizeT {
    s.count
  }

  /** `empty()`: the sentinel has no child. Since the sentinel is only linked
      on its left, this is exactly "the tree is null" and "iteration visits
      nothing". */
  function IsEmpty(s: PSet): (b: bool)
    ensures Valid(s) ==> (b <==> s.root.left.Nil?)
    ensures Valid(s) ==> (b <==> InOrder(s.root.left) == [])
  {
    s.root.left.Nil? && s.root.right.Nil?
  }

  /** `clear()`: drop this instance's reference to its tree. The counter is
      left alone. */
  function Clear(s: PSet): (r: PSet)
    ensures Valid(r) == Valid(s)
    ensures Valid(s) ==> IsEmpty(r)
    ensures r.count == s.count
  {
    PSet(Sentinel(Nil, s.root.right), s.count)
  }

  /** `begin()`: `min_in_subtree` started at the sentinel, which is the end
      iterator when the sentinel has no left child. */
  function Begin(s: PSet): (r: Iter)
    ensures Valid(s) ==> (r.End? <==> IsEmpty(s))
    ensures BST(s.root.left) && r.At? ==> LeastKey(s.root.left, r.key)
    ensures r.At? ==> r.key in Keys(s.root.left)
  {
    if s.root.left.Nil? then End
    else
      assert BST(s.root.left) ==> LeastKey(s.root.left, Leftmost(s.root.left)) by {
        if BST(s.root.left) { LeftmostIsMinimum(s.root.left); }
      }
      At(Leftmost(s.root.left))
  }

  /** `find(key)`. */
  function FindIn(s: PSet, k: int): (r: Iter)
    ensures r.End? || r == At(k)
    ensures BST(s.root.left) ==> (r == At(k) <==> k in Keys(s.root.left))
  {
    assert BST(s.root.left) ==> (Find(s.root.left, k) == At(k) <==> k in Keys(s.root.left)) by {
      if BST(s.root.left) { FindCorrect(s.root.left, k); }
    }
    Find(s.root.left, k)
  }

  /** `lower_bound(key)`: the first key not below `key`, or the end. */
  function LowerBoundIn(s: PSet, k: int): (r: Iter)
    ensures BST(s.root.left) ==> IsLowerBound(Keys(s.root.left), k, r)
  {
    assert BST(s.root.left) ==> IsLowerBound(Keys(s.root.left), k, LowerBound(s.root.left, k)) by {
      if BST(s.root.left) { LowerBoundCorrect(s.root.left, k); }
    }
    LowerBound(s.root.left, k)
  }

  /** `upper_bound(key)`: the first key above `key`, or the end. Its loop is
      the same descent as the one of `next`. */
  function UpperBoundIn(s: PSet, k: int): (r: Iter)
    ensures BST(s.root.left) ==> IsSuccessor(Keys(s.root.left), k, r)
  {
    assert BST(s.root.left) ==> IsSuccessor(Keys(s.root.left), k, Next(s.root.left, k)) by {
      if BST(s.root.left) { NextCorrect(s.root.left, k); }
    }
    NextFrom(s.root.left, k, End)
  }

  /** `iterator::operator++`: the end iterator stays put; otherwise the
      root-relative successor. */
  function Advance(s: PSet, it: Iter): (r: Iter)
    ensures it.End? ==> r.End?
    ensures it.At? && BST(s.root.left) ==> IsSuccessor(Keys(s.root.left), it.key, r)
    ensures it.At? && r.At? ==> r.key in Keys(s.root.left) && it.key < r.key
  {
    if it.End? then End
    else
      assert BST(s.root.left) ==> IsSuccessor(Keys(s.root.left), it.key, Next(s.root.left, it.key)) by {
        if BST(s.root.left) { NextCorrect(s.root.left, it.key); }
      }
      Next(s.root.left, it.key)
  }

  /** `iterator::operator--`: from the end iterator, `max_in_subtree` of the
      tree (undefined on an empty tree, hence the precondition); otherwise the
      root-relative predecessor, which is the end iterator before the first
      key. */
  function Retreat(s: PSet, it: Iter): (r: Iter)
    requires it.At? || s.root.left.Node?
    ensures it.At? && BST(s.root.left) ==> IsPredecessor(Keys(s.root.left), it.key, r)
    ensures it.End? && BST(s.root.left) ==> r.At? && GreatestKey(s.root.left, r.key)
  {
    if it.At? then
      assert BST(s.root.left) ==> IsPredecessor(Keys(s.root.left), it.key, Prev(s.root.left, it.key)) by {
        if BST(s.root.left) { PrevCorrect(s.root.left, it.key); }
      }
      Prev(s.root.left, it.key)
    else
      assert BST(s.root.left) ==> GreatestKey(s.root.left, Rightmost(s.root.left)) by {
        if BST(s.root.left) { RightmostIsMaximum(s.root.left); }
      }
      At(Rightmost(s.root.left))
  }

  // ------------------------------------------------------------ iteration

  /** The keys a walk with `operator++` from `it` visits before reaching
      `end()`. Each step searches from the root for the least key above the
      current one, so on any tree the walk climbs strictly and ends. */
  function IterateFrom(s: PSet, it: Iter): (r: seq<int>)
    requires it.End? || it.key in Keys(s.root.left)
    ensures it.End? <==> r == []
    ensures it.At? ==> r[0] == it.key
    ensures StrictlySorted(r)
    ensures forall i :: 0 <= i < |r| ==> r[i] in Keys(s.root.left)
    decreases if it.End? then 0 else |Above(s.root.left, it.key)| + 1
  {
    if it.End? then []
    else
      var n := Advance(s, it);
      if n.End? then [it.key]
      else
        AboveShrinks(s.root.left, it.key, n.key);
        var rest := IterateFrom(s, n);
        assert forall i :: 0 <= i < |rest| ==> it.key < rest[i] by {
          forall i | 0 <= i < |rest| ensures it.key < rest[i] {
            assert n.key <= rest[i];
          }
        }
        [it.key] + rest
  }

  /** The keys a walk from `begin()` to `end()` visits. */
  function Iterate(s: PSet): (r: seq<int>)
    ensures StrictlySorted(r)
    ensures forall i :: 0 <= i < |r| ==> r[i] in Keys(s.root.left)
    ensures r == [] <==> s.root.left.Nil?
  {
    IterateFrom(s, Begin(s))
  }

  /** On a search tree, iteration from `begin()` visits exactly the in-order
      traversal: every key once, in increasing order. */
  lemma IterateIsInOrder(s: PSet)
    requires BST(s.root.left)
    ensures Iterate(s) == InOrder(s.root.left)
  {
    var t := s.root.left;
    var sq := InOrder(t);
    if t.Node? {
      BSTInOrderSorted(t);
      KeysAreInOrderElements(t);
      var b := Begin(s);
      assert b.At? && LeastKey(t, b.key);
      LeastOfSorted(sq, b.key);
      IterateSuffix(s, 0);
      assert sq[0..] == sq;
    }
  }

  /** On a search tree, iteration from the `i`-th key of the in-order
      traversal visits the rest of it. */
  lemma {:induction false} IterateSuffix(s: PSet, i: nat)
    requires BST(s.root.left) && i < |InOrder(s.root.left)|
    ensures InOrder(s.root.left)[i] in Keys(s.root.left)
    ensures IterateFrom(s, At(InOrder(s.root.left)[i])) == InOrder(s.root.left)[i..]
    decreases |InOrder(s.root.left)| - i
  {
    var t := s.root.left;
    var sq := InOrder(t);
    BSTInOrderSorted(t);
    KeysAreInOrderElements(t);
    var k := sq[i];
    assert k in Keys(t);
    var n := Advance(s, At(k));
    IterateFromStep(s, k);
    assert IsSuccessor(Keys(t), k, n);
    if n.At? {
      assert LeastAbove(Keys(t), k, n.key);
      assert n.key in sq;
      forall x | x in sq && k < x ensures n.key <= x {
        assert x in Keys(t);
      }
      NextOfSorted(sq, i, n.key);
      assert n == At(sq[i + 1]);
      IterateSuffix(s, i + 1);
      var rest := IterateFrom(s, n);
      assert rest == sq[i + 1..];
      ConsSuffix(sq, i);
      assert IterateFrom(s, At(k)) == [k] + rest;
    } else {
      forall x | x in sq ensures x <= k {
        assert x in Keys(t);
      }
      LastOfSorted(sq, i);
      assert sq[i..] == [k];
    }
  }

  /** One step of the walk: the current key, then the walk from its
      successor. */
  lemma IterateFromStep(s: PSet, k: int)
    requires k in Keys(s.root.left)
    ensures IterateFrom(s, At(k)) == [k] + IterateFrom(s, Advance(s, At(k)))
  {
  }

  lemma ConsSuffix(sq: seq<int>, i: nat)
    requires i < |sq|
    ensures sq[i..] == [sq[i]] + sq[i + 1..]
  {
  }

  /** In a strictly increasing sequence the least element comes first. */
  lemma LeastOfSorted(sq: seq<int>, m: int)
    requires StrictlySorted(sq) && m in sq
    requires forall x :: x in sq ==> m <= x
    ensures sq[0] == m
  {
    var j :| 0 <= j < |sq| && sq[j] == m;
    assert sq[0] in sq;
    assert forall a :: 0 <= a < |sq| ==> sq[0] <= sq[a];
  }

  /** In a strictly increasing sequence the least element above `sq[i]`
      comes right after it. */
  lemma NextOfSorted(sq: seq<int>, i: nat, m: int)
    requires StrictlySorted(sq) && i < |sq| && m in sq && sq[i] < m
    requires forall x :: x in sq && sq[i] < x ==> m <= x
    ensures i + 1 < |sq| && sq[i + 1] == m
  {
    var j :| 0 <= j < |sq| && sq[j] == m;
    assert forall a :: 0 <= a <= i ==> sq[a] <= sq[i];
    assert sq[i + 1] in sq && sq[i] < sq[i + 1];
    assert forall a :: i + 1 <= a < |sq| ==> sq[i + 1] <= sq[a];
  }

  /** In a strictly increasing sequence an element nothing exceeds is last. */
  lemma LastOfSorted(sq: seq<int>, i: nat)
    requires StrictlySorted(sq) && i < |sq|
    requires forall x :: x in sq ==> x <= sq[i]
    ensures i + 1 == |sq|
  {
    assert sq[|sq| - 1] in sq;
  }

  /** What `insert` returns: the new version, an iterator and whether the key
      was added. */
  datatype InsertResult = InsertResult(after: PSet, it: Iter, inserted: bool)

  /** `insert(key)`: when `find(key)` succeeds nothing changes and the end
      iterator comes back; otherwise a fresh leaf is spliced in by the path
      copy and the counter goes up. */
  function Insert(s: PSet, k: int): (r: InsertResult)
    ensures r.after.root.right == s.root.right
    ensures r.inserted ==> r.it == At(k) && r.after.count == Incr(s.count)
    ensures !r.inserted ==> r.it == End && r.after == s
  {
    if Find(s.root.left, k) != End then InsertResult(s, End, false)
    else
      var leaf := Node(Nil, k, Nil);
      var t := CopyPath(s.root.left, k, leaf, Nil, Nil);
      InsertResult(PSet(Sentinel(t, s.root.right), Incr(s.count)), At(k), true)
  }

  /** The reference for an insertion into a sorted sequence: `k` goes in
      before the first element not below it. */
  function InsertSorted(s: seq<int>, k: int): seq<int> {
    if |s| == 0 then [k]
    else if s[0] < k then [s[0]] + InsertSorted(s[1..], k)
    else [k] + s
  }

  lemma {:induction false} InsertSortedBetween(b: seq<int>, a: seq<int>, k: int)
    requires forall y :: y in b ==> y < k
    requires forall y :: y in a ==> k < y
    ensures InsertSorted(b + a, k) == b + [k] + a
  {
    if |b| == 0 {
      assert b + a == a;
      if |a| > 0 {
        assert a[0] in a;
      }
    } else {
      assert b[0] in b;
      assert (b + a)[1..] == b[1..] + a;
      forall y | y in b[1..] ensures y < k {
        assert y in b;
      }
      InsertSortedBetween(b[1..], a, k);
      assert b == [b[0]] + b[1..];
    }
  }

  /** `insert` of a present key reports `false`, returns the end iterator and
      leaves the tree and the counter as they were. */
  lemma InsertPresent(s: PSet, k: int)
    requires BST(s.root.left) && k in Keys(s.root.left)
    ensures Insert(s, k) == InsertResult(s, End, false)
  {
    FindCorrect(s.root.left, k);
  }

  /** The fresh leaf spliced in at the null slot where the search for an
      absent key ends keeps search-tree order and adds exactly that key. */
  lemma LeafSpliceKeys(t: Tree, k: int)
    requires BST(t) && k !in Keys(t)
    ensures var t' := CopyPath(t, k, Node(Nil, k, Nil), Nil, Nil);
      BST(t') && Keys(t') == Keys(t) + {k}
  {
    var leaf := Node(Nil, k, Nil);
    LookupFindsPresentKeys(t, k);
    OwnKeyFits(t, k);
    assert Keys(Graft(leaf, Nil, Nil)) == {k};
    CopyPathOrdered(t, k, leaf, Nil, Nil);
    CopyPathKeys(t, k, leaf, Nil, Nil);
  }

  /** The fresh leaf lands between the keys below and the keys above it in
      the in-order sequence. */
  lemma LeafSpliceInOrder(t: Tree, k: int)
    requires BST(t) && k !in Keys(t)
    ensures InOrder(CopyPath(t, k, Node(Nil, k, Nil), Nil, Nil)) == InsertSorted(InOrder(t), k)
  {
    var leaf := Node(Nil, k, Nil);
    LookupFindsPresentKeys(t, k);
    InOrderAroundSearch(t, k);
    CopyPathInOrder(t, k, leaf, Nil, Nil);
    assert InOrder(Graft(leaf, Nil, Nil)) == [k];
    OwnKeyFits(t, k);
    FittingKeySeparates(t, k, k);
    assert InOrder(t) == Before(t, k) + After(t, k);
    InsertSortedBetween(Before(t, k), After(t, k), k);
  }

  /** `insert` of an absent key adds exactly that key: the tree stays a search
      tree, its in-order sequence is the old one with `k` merged in at its place,
      `find(k)` now succeeds, the counter goes up by one and the returned
      iterator names `k`. */
  lemma InsertAbsent(s: PSet, k: int)
    requires BST(s.root.left) && k !in Keys(s.root.left)
    ensures var r := Insert(s, k);
      && r.inserted && r.it == At(k)
      && r.after.count == Incr(s.count)
      && BST(r.after.root.left)
      && Keys(r.after.root.left) == Keys(s.root.left) + {k}
      && InOrder(r.after.root.left) == InsertSorted(InOrder(s.root.left), k)
      && Find(r.after.root.left, k) == At(k)
  {
    var t := s.root.left;
    FindCorrect(t, k);
    var t' := CopyPath(t, k, Node(Nil, k, Nil), Nil, Nil);
    assert Insert(s, k).after.root.left == t';
    LeafSpliceKeys(t, k);
    LeafSpliceInOrder(t, k);
    FindCorrect(t', k);
  }

  /** Persistence: a copy taken before an insertion keeps its tree; the key
      is found in the new version and not in the copy, and every subtree of
      the old tree off the copied path is reused by the new version. */
  lemma SnapshotSurvivesInsert(a: PSet, x: int)
    requires BST(a.root.left) && x !in Keys(a.root.left)
    ensures var b := Copy(a);
      var a' := Insert(a, x).after;
      && b.root == a.root
      && Find(b.root.left, x) == End
      && Find(a'.root.left, x) == At(x)
      && Keys(a'.root.left) == Keys(b.root.left) + {x}
      && OffPath(a.root.left, x) <= Subtrees(a'.root.left)
  {
    InsertAbsent(a, x);
    FindCorrect(a.root.left, x);
    CopyPathShares(a.root.left, x, Node(Nil, x, Nil), Nil, Nil);
  }

  /** The copy constructor: shares the whole tree in O(1). The counter is not
      copied; it starts at zero. */
  function Copy(s: PSet): (r: PSet)
    ensures r.root == s.root && r.count == 0
    ensures InOrder(r.root.left) == InOrder(s.root.left)
  {
    PSet(s.root, 0)
  }

  /** Copy assignment: take the other instance's tree, keep this counter. */
  function Assign(self: PSet, other: PSet): (r: PSet)
    ensures r.root == other.root && r.count == self.count
    ensures InOrder(r.root.left) == InOrder(other.root.left)
  {
    PSet(other.root, self.count)
  }

  /** The move constructor: the new instance takes the tree and starts its
      counter at zero; the source keeps its counter and loses its tree. */
  function Move(source: PSet): (r: (PSet, PSet))
    ensures r.0.root == source.root && r.0.count == 0
    ensures Valid(r.1) && IsEmpty(r.1) && r.1.count == source.count
  {
    (PSet(source.root, 0), PSet(Sentinel(Nil, Nil), source.count))
  }

  /** Move assignment: take the other instance's tree, keep this counter; the
      other instance keeps its counter and loses its tree. */
  function MoveAssign(self: PSet, other: PSet): (r: (PSet, PSet))
    ensures r.0.root == other.root && r.0.count == self.count
    ensures Valid(r.1) && IsEmpty(r.1) && r.1.count == other.count
  {
    (PSet(other.root, self.count), PSet(Sentinel(Nil, Nil), other.count))
  }

  /** `swap`: the trees change places, the counters do not. */
  function Swap(a: PSet, b: PSet): (r: (PSet, PSet))
    ensures r.0.root == b.root && r.1.root == a.root
    ensures r.0.count == a.count && r.1.count == b.count
  {
    (PSet(b.root, a.count), PSet(a.root, b.count))
  }

  // ---------------------------------------------------------------- erase

  /** The keys of `t` above `k`: the recursive erase climbs through them. */
  ghost function Above(t: Tree, k: int): set<int> {
    set x | x in Keys(t) && k < x
  }

  lemma AboveShrinks(t: Tree, k: int, m: int)
    requires m in Keys(t) && k < m
    ensures |Above(t, m)| < |Above(t, k)|
  {
    assert Above(t, m) <= Above(t, k);
    assert m in Above(t, k) - Above(t, m);
    assert Above(t, k) == Above(t, m) + (Above(t, k) - Above(t, m));
  }

  /** Both children present: the branch of `erase` that moves the successor. */
  predicate HasTwoChildren(node: Tree)
    requires node.Node?
  {
    !(IsLeaf(node) || HasOneChild(node))
  }

  /** `is_leaf`, `has_one_child` and the two-child case split every node
      three ways, as the branches of `erase` assume. */
  lemma NodeShapes(node: Tree)
    requires node.Node?
    ensures !(IsLeaf(node) && HasOneChild(node))
    ensures HasTwoChildren(node) <==> node.left.Node? && node.right.Node?
  {
  }

  /** `erase` at key `k` is defined: the iterator names a node of this tree,
      and when that node has two children its successor exists and can be
      erased in turn. */
  ghost predicate Erasable(t: Tree, k: int)
    decreases |Above(t, k)|
  {
    var node := Lookup(t, k);
    && node.Node?
    && (HasTwoChildren(node) ==>
          var n := Next(t, k);
          && n.At?
          && (AboveShrinks(t, k, n.key); Erasable(t, n.key)))
  }

  /** How a tree reads once `copy_path` has overwritten, in place, the
      children of an existing node `c` it grafted: every occurrence of `c`
      has lost its children. The graft only ever reuses an existing node in
      the 0/1-child branch of `erase`; `c == Nil` means no existing node was
      touched. Nodes are identified by value. */
  function ResetIn(t: Tree, c: Tree): (r: Tree)
    ensures Keys(r) <= Keys(t)
  {
    if c.Nil? then t
    else if t == c then Graft(c, Nil, Nil)
    else match t
      case Nil => Nil
      case Node(l, a, rt) => Node(ResetIn(l, c), a, ResetIn(rt, c))
  }

  /** The keys strictly below the root of `c`. */
  function Descendants(c: Tree): set<int> {
    if c.Nil? then {} else Keys(c.left) + Keys(c.right)
  }

  /** The in-place reset loses at most the keys below the reset node. */
  lemma {:induction false} ResetKeys(t: Tree, c: Tree)
    ensures Keys(t) - Descendants(c) <= Keys(ResetIn(t, c))
  {
    if c.Node? && t != c && t.Node? {
      ResetKeys(t.left, c);
      ResetKeys(t.right, c);
    }
  }

  /** Resetting a node without children changes nothing. */
  lemma {:induction false} ResetChildless(t: Tree, c: Tree)
    requires c.Nil? || IsLeaf(c)
    ensures ResetIn(t, c) == t
  {
    if c.Node? && t != c && t.Node? {
      ResetChildless(t.left, c);
      ResetChildless(t.right, c);
    }
  }

  /** A tree that does not hold the reset node's key is unaffected. */
  lemma {:induction false} ResetElsewhere(t: Tree, c: Tree)
    requires c.Node? && c.key !in Keys(t)
    ensures ResetIn(t, c) == t
  {
    if t.Node? {
      ResetElsewhere(t.left, c);
      ResetElsewhere(t.right, c);
    }
  }

  /** What the recursive part of `erase` produces: the new tree, the counter,
      the returned iterator, and the existing node whose children were
      overwritten in place (`Nil` when none). */
  datatype EraseStep = EraseStep(tree: Tree, count: SizeT, next: Iter, cleared: Tree)

  /** `erase` at a node holding `k`, as written. With at most one child, the
      successor is computed first and the path copy puts the surviving child
      (or null) in the node's place; since the copy overwrites the spliced
      node's children with null, that child loses its own children, in every
      version sharing it. With two children, the successor `n` is cloned,
      erased by a recursive call (whose decrement is undone), and the path
      copy puts the clone in the node's place with the node's ORIGINAL
      children, read after the recursive call's in-place reset; so `n` is
      still inside the right child. The counter drops by one in every case. */
  function EraseAt(t: Tree, k: int, count: SizeT): (r: EraseStep)
    requires Erasable(t, k)
    ensures r.count == Decr(count)
    decreases |Above(t, k)|
  {
    var node := Lookup(t, k);
    if IsLeaf(node) || HasOneChild(node) then
      var res := Next(t, k);
      var child := OnlyChild(node);
      EraseStep(CopyPath(t, k, child, Nil, Nil), Decr(count), res, child)
    else
      var n := Next(t, k).key;
      // the clone of the successor node; the graft below replaces its children
      var nextCopy := Node(Nil, n, Nil);
      AboveShrinks(t, k, n);
      var inner := EraseAt(t, n, count);
      var restored := Incr(inner.count);
      var c := inner.cleared;
      var t' := CopyPath(inner.tree, k, nextCopy, ResetIn(node.left, c), ResetIn(node.right, c));
      EraseStep(t', Decr(restored), At(n), c)
  }

  /** What `erase` returns: the new version and an iterator, together with the
      existing node whose children the erase overwrote in place (`Nil` when
      none): every other version `v` sharing it reads as `ResetIn(v, cleared)`
      afterwards. */
  datatype EraseResult = EraseResult(after: PSet, next: Iter, cleared: Tree)

  /** `erase(it)`: erasing the end iterator changes nothing and returns it;
      otherwise the tree is rebuilt by `EraseAt` and the counter drops by one. */
  function Erase(s: PSet, it: Iter): (r: EraseResult)
    requires it.End? || Erasable(s.root.left, it.key)
    ensures it.End? ==> r == EraseResult(s, End, Nil)
    ensures it.At? ==> r.after.count == Decr(s.count)
    ensures r.after.root.right == s.root.right
  {
    if it.End? then EraseResult(s, End, Nil)
    else
      var step := EraseAt(s.root.left, it.key, s.count);
      EraseResult(PSet(Sentinel(step.tree, s.root.right), step.count), step.next, step.cleared)
  }

  /** The 0/1-child branch of `erase`, unfolded: the path copy with the only
      child (or null) as the replacement, the old successor, and the child
      as the node overwritten in place. */
  lemma EraseAtSplice(t: Tree, k: int, count: SizeT)
    requires Lookup(t, k).Node? && !HasTwoChildren(Lookup(t, k))
    ensures Erasable(t, k)
    ensures EraseAt(t, k, count)
         == EraseStep(CopyPath(t, k, OnlyChild(Lookup(t, k)), Nil, Nil), Decr(count), Next(t, k), OnlyChild(Lookup(t, k)))
  {
  }

  /** Cutting a leaf out by a path copy with a null replacement keeps
      search-tree order and removes exactly the leaf's key, from the key set
      and from the in-order sequence. */
  lemma CutLeaf(t: Tree, k: int)
    requires BST(t) && Lookup(t, k).Node? && IsLeaf(Lookup(t, k))
    ensures var t' := CopyPath(t, k, Nil, Nil, Nil);
      && BST(t')
      && Keys(t') == Keys(t) - {k}
      && InOrder(t') == Before(t, k) + After(t, k)
      && InOrder(t) == Before(t, k) + [k] + After(t, k)
  {
    CutLeafKeys(t, k);
    CutLeafInOrder(t, k);
  }

  /** The key-set half of `CutLeaf`. */
  lemma CutLeafKeys(t: Tree, k: int)
    requires BST(t) && Lookup(t, k).Node? && IsLeaf(Lookup(t, k))
    ensures var t' := CopyPath(t, k, Nil, Nil, Nil);
      BST(t') && Keys(t') == Keys(t) - {k}
  {
    assert Graft(Nil, Nil, Nil) == Nil;
    CopyPathOrdered(t, k, Nil, Nil, Nil);
    CopyPathKeys(t, k, Nil, Nil, Nil);
    assert Keys(Lookup(t, k)) == {k};
  }

  /** The in-order half of `CutLeaf`. */
  lemma CutLeafInOrder(t: Tree, k: int)
    requires BST(t) && Lookup(t, k).Node? && IsLeaf(Lookup(t, k))
    ensures InOrder(CopyPath(t, k, Nil, Nil, Nil)) == Before(t, k) + After(t, k)
    ensures InOrder(t) == Before(t, k) + [k] + After(t, k)
  {
    var node := Lookup(t, k);
    assert node == Node(Nil, k, Nil);
    assert InOrder(node) == [k];
    InOrderAroundSearch(t, k);
    CutInOrder(t, k);
  }

  /** A path copy with a null replacement cuts the visited node's whole
      subtree out of the in-order sequence. */
  lemma CutInOrder(t: Tree, k: int)
    ensures InOrder(CopyPath(t, k, Nil, Nil, Nil)) == Before(t, k) + After(t, k)
  {
    var g := Graft(Nil, Nil, Nil);
    assert g == Nil;
    assert InOrder(g) == [];
    CopyPathInOrder(t, k, Nil, Nil, Nil);
    DropEmpty(Before(t, k), InOrder(g), After(t, k));
  }

  lemma DropEmpty(b: seq<int>, e: seq<int>, a: seq<int>)
    requires e == []
    ensures b + e + a == b + a
  {
  }

  /** Erasing a leaf removes exactly its key: the result is a search tree with
      every other key, its in-order sequence is the old one with `k` cut out,
      and the returned iterator is the old successor of `k`. */
  lemma EraseLeaf(s: PSet, k: int)
    requires BST(s.root.left)
    requires Lookup(s.root.left, k).Node? && IsLeaf(Lookup(s.root.left, k))
    ensures var r := Erase(s, At(k));
      && BST(r.after.root.left)
      && Keys(r.after.root.left) == Keys(s.root.left) - {k}
      && InOrder(r.after.root.left) == Before(s.root.left, k) + After(s.root.left, k)
      && InOrder(s.root.left) == Before(s.root.left, k) + [k] + After(s.root.left, k)
      && IsSuccessor(Keys(s.root.left), k, r.next)
      && r.after.count == Decr(s.count)
      && r.cleared == Nil
  {
    var t := s.root.left;
    EraseAtSplice(t, k, s.count);
    CutLeaf(t, k);
    NextCorrect(t, k);
  }

  /** Erasing a node with one child splices in that child stripped of its own
      children: on a search tree the result is a search tree that has lost
      the whole subtree at `k` except the child's key. When the child is a
      leaf this removes exactly `k`. */
  lemma EraseOneChild(s: PSet, k: int)
    requires BST(s.root.left)
    requires Lookup(s.root.left, k).Node? && HasOneChild(Lookup(s.root.left, k))
    ensures var node := Lookup(s.root.left, k);
      var c := OnlyChild(node);
      var r := Erase(s, At(k));
      && BST(r.after.root.left)
      && Keys(r.after.root.left) == (Keys(s.root.left) - Keys(node)) + {c.key}
      && (IsLeaf(c) ==> Keys(r.after.root.left) == Keys(s.root.left) - {k})
      && IsSuccessor(Keys(s.root.left), k, r.next)
      && r.after.count == Decr(s.count)
      && r.cleared == c
  {
    var t := s.root.left;
    var node := Lookup(t, k);
    var c := OnlyChild(node);
    assert Graft(c, Nil, Nil) == Node(Nil, c.key, Nil);
    assert c.key in Keys(node);
    SubtreeKeysFit(t, k, c.key);
    CopyPathOrdered(t, k, c, Nil, Nil);
    CopyPathKeys(t, k, c, Nil, Nil);
    NextCorrect(t, k);
    if IsLeaf(c) {
      LookupIsBST(t, k);
      assert Keys(node) == {k, c.key};
      assert c.key != k;
    }
  }

  /** On a search tree the root-relative successor of a node with a right
      child is the leftmost key of that child, and the search for it stops at
      a node without a left child. */
  lemma SuccessorOfTwoChildNode(t: Tree, k: int)
    requires BST(t) && Lookup(t, k).Node? && Lookup(t, k).right.Node?
    ensures var node := Lookup(t, k);
      var m := Leftmost(node.right);
      && m in Keys(node.right)
      && Next(t, k) == At(m)
      && Lookup(t, m) == Lookup(node.right, m)
      && Lookup(t, m).Node? && Lookup(t, m).left.Nil?
  {
    var node := Lookup(t, k);
    LookupIsBST(t, k);
    var right := node.right;
    LeftmostIsMinimum(right);
    LookupLeftmost(right);
    var m := Leftmost(right);
    assert m in Keys(node);
    SubtreeKeysFit(t, k, m);
    LookupWithin(t, k, m);
    assert Lookup(node, m) == Lookup(right, m);
    LeftmostOfRightIsLeastAbove(t, k);
    NextCorrect(t, k);
  }

  /** The leftmost key of the right child of the node at `k` is the least
      key of the whole tree above `k`. */
  lemma LeftmostOfRightIsLeastAbove(t: Tree, k: int)
    requires BST(t) && Lookup(t, k).Node? && Lookup(t, k).right.Node?
    ensures LeastAbove(Keys(t), k, Leftmost(Lookup(t, k).right))
  {
    var node := Lookup(t, k);
    LookupIsBST(t, k);
    var right := node.right;
    LeftmostIsMinimum(right);
    var m := Leftmost(right);
    assert m in Keys(node);
    SubtreeKeysFit(t, k, m);
    InOrderAroundSearch(t, k);
    KeysAreInOrderElements(t);
    KeysAreInOrderElements(node);
    OwnKeyFits(t, k);
    FittingKeySeparates(t, k, k);
    FittingKeySeparates(t, k, m);
    forall y | y in Keys(t) && k < y ensures m <= y {
      assert y in InOrder(t);
      if y in After(t, k) {
        assert m < y;
      } else {
        assert y in InOrder(node);
        assert y in Keys(node);
        assert y in Keys(right);
      }
    }
  }

  /** The only child of the successor of a node with two children: the node
      whose children the two-child branch of `erase` resets in place. */
  function SuccessorChild(t: Tree, k: int): (c: Tree)
    requires BST(t) && Lookup(t, k).Node? && Lookup(t, k).right.Node?
    ensures c.Node? ==> c.key in Keys(Lookup(t, k).right)
  {
    SuccessorOfTwoChildNode(t, k);
    var m := Leftmost(Lookup(t, k).right);
    OnlyChild(Lookup(t, m))
  }

  /** On a search tree, erasing any present key is defined: the successor of
      a node with two children has no left child, so the recursive erase
      takes the 0/1-child branch. */
  lemma ErasableOnBST(t: Tree, k: int)
    requires BST(t) && k in Keys(t)
    ensures Erasable(t, k)
  {
    LookupFindsPresentKeys(t, k);
    var node := Lookup(t, k);
    if HasTwoChildren(node) {
      SuccessorOfTwoChildNode(t, k);
      var m := Leftmost(node.right);
      assert !HasTwoChildren(Lookup(t, m));
      assert Erasable(t, m);
    }
  }

  /** The tree the two-child branch of erase builds, as written: the inner
      erase of the successor `m` splices in m's right child `c` and resets
      its children in place; its path copy is then overwritten by the outer
      one, which puts a clone of `m` in the erased node's place with that
      node's original children, the right one now reading `c` reset. */
  lemma EraseTwoChildrenTree(t: Tree, k: int, count: SizeT)
    requires BST(t) && Lookup(t, k).Node? && HasTwoChildren(Lookup(t, k))
    ensures Erasable(t, k)
    ensures var node := Lookup(t, k);
      var m := Leftmost(node.right);
      var c := SuccessorChild(t, k);
      && EraseAt(t, k, count).tree == CopyPath(t, k, Node(Nil, m, Nil), node.left, ResetIn(node.right, c))
      && EraseAt(t, k, count).next == At(m)
      && EraseAt(t, k, count).cleared == c
      && IsSuccessor(Keys(t), k, At(m))
  {
    var node := Lookup(t, k);
    LookupFindsPresentKeys(t, k);
    ErasableOnBST(t, k);
    SuccessorOfTwoChildNode(t, k);
    NextCorrect(t, k);
    var m := Leftmost(node.right);
    var c := SuccessorChild(t, k);
    var inner := EraseAt(t, m, count);
    assert inner.tree == CopyPath(t, m, c, Nil, Nil) && inner.cleared == c;
    if c.Node? {
      LookupIsBST(t, k);
      ResetElsewhere(node.left, c);
    }
    assert m in Keys(node);
    SubtreeKeysFit(t, k, m);
    CopyPathBelowIsOverwritten(t, k, m, c, Nil, Nil, Node(Nil, m, Nil), node.left, ResetIn(node.right, c));
  }

  /** Overwriting a node's key with a key `m`, and its right child with
      `right`, changes the structural order only there. */
  lemma GraftSuccessorInOrder(t: Tree, k: int, m: int, right: Tree)
    requires Lookup(t, k).Node?
    ensures var node := Lookup(t, k);
      var r := CopyPath(t, k, Node(Nil, m, Nil), node.left, right);
      && InOrder(t) == Before(t, k) + (InOrder(node.left) + [k] + InOrder(node.right)) + After(t, k)
      && InOrder(r) == Before(t, k) + (InOrder(node.left) + [m] + InOrder(right)) + After(t, k)
  {
    var node := Lookup(t, k);
    var g := Node(Nil, m, Nil);
    InOrderAroundSearch(t, k);
    CopyPathInOrder(t, k, g, node.left, right);
    assert Graft(g, node.left, right) == Node(node.left, m, right);
  }

  /** The set arithmetic behind `GraftSuccessorKeys`: from the tree's keys
      `ks`, the node's keys `n = l + {k} + r` are replaced by `l + {m} + r'`. */
  lemma ReplacedKeys(ks: set<int>, n: set<int>, l: set<int>, r: set<int>, r': set<int>, k: int, m: int)
    requires n == l + {k} + r && n <= ks && k !in l && k !in r
    requires r' <= r && m in r'
    ensures (ks - n) + (l + {m} + r') <= ks - {k}
    ensures ks - {k} - (r - r') <= (ks - n) + (l + {m} + r')
  {
  }

  /** Overwriting a node's key with a key `m` of its right subtree, and that
      subtree with a part `right` of it, drops the old key and the keys
      `right` lacks, and keeps every other one. */
  lemma GraftSuccessorKeys(t: Tree, k: int, m: int, right: Tree)
    requires BST(t) && Lookup(t, k).Node?
    requires m in Keys(right) && Keys(right) <= Keys(Lookup(t, k).right)
    ensures var r := CopyPath(t, k, Node(Nil, m, Nil), Lookup(t, k).left, right);
      && Keys(r) <= Keys(t) - {k}
      && Keys(t) - {k} - (Keys(Lookup(t, k).right) - Keys(right)) <= Keys(r)
  {
    var node := Lookup(t, k);
    var g := Node(Nil, m, Nil);
    CopyPathKeys(t, k, g, node.left, right);
    LookupIsBST(t, k);
    assert Graft(g, node.left, right) == Node(node.left, m, right);
    assert Keys(node) == Keys(node.left) + {k} + Keys(node.right);
    ReplacedKeys(Keys(t), Keys(node), Keys(node.left), Keys(node.right), Keys(right), k, m);
  }

  /** A tree whose structural order repeats a key is no search tree. */
  lemma RepeatedKeyBreaksOrder(t: Tree, b: seq<int>, l: seq<int>, m: int, c: seq<int>, a: seq<int>)
    requires InOrder(t) == b + (l + [m] + c) + a && m in c
    ensures !BST(t)
  {
    var i :| 0 <= i < |c| && c[i] == m;
    var sq := InOrder(t);
    var p := |b| + |l|;
    assert !StrictlySorted(sq) by {
      assert sq[p] == m;
      assert sq[p + 1 + i] == m;
    }
    if BST(t) {
      BSTInOrderSorted(t);
    }
  }

  /** The keys the two-child branch leaves: all but `k` and the keys below
      the reset node `c`, all of them when `c` has no children. */
  lemma TwoChildResultKeys(t: Tree, k: int)
    requires BST(t) && Lookup(t, k).Node? && HasTwoChildren(Lookup(t, k))
    ensures var node := Lookup(t, k);
      var m := Leftmost(node.right);
      var c := SuccessorChild(t, k);
      var right := ResetIn(node.right, c);
      var r := CopyPath(t, k, Node(Nil, m, Nil), node.left, right);
      && m in Keys(right)
      && Keys(t) - {k} - Descendants(c) <= Keys(r) <= Keys(t) - {k}
      && ((c.Nil? || IsLeaf(c)) ==> Keys(r) == Keys(t) - {k})
  {
    var node := Lookup(t, k);
    SuccessorOfTwoChildNode(t, k);
    var m := Leftmost(node.right);
    var c := SuccessorChild(t, k);
    var right := ResetIn(node.right, c);
    // m sits above c, so the reset keeps it
    LookupIsBST(t, m);
    assert c == Lookup(t, m).right;
    assert m !in Descendants(c);
    ResetKeys(node.right, c);
    GraftSuccessorKeys(t, k, m, right);
    if c.Nil? || IsLeaf(c) {
      ResetChildless(node.right, c);
    }
  }

  /** Erasing a node with two children, as written, overwrites its key with a
      second copy of its successor `m`: the structural order is the old one
      with `k` replaced by `m`, while `m` is still inside the right child,
      where m's own right child `c` has lost its children. So the result
      misses `k` and the keys below `c` (exactly `k` when `c` has no
      children) and is no longer a search tree; the returned iterator names
      `m` and the counter drops by one. */
  lemma EraseTwoChildren(s: PSet, k: int)
    requires BST(s.root.left)
    requires Lookup(s.root.left, k).Node? && HasTwoChildren(Lookup(s.root.left, k))
    ensures Erasable(s.root.left, k)
    ensures var t := s.root.left;
      var node := Lookup(t, k);
      var m := Leftmost(node.right);
      var c := SuccessorChild(t, k);
      var right := ResetIn(node.right, c);
      var r := Erase(s, At(k));
      && IsSuccessor(Keys(t), k, At(m))
      && InOrder(t) == Before(t, k) + (InOrder(node.left) + [k] + InOrder(node.right)) + After(t, k)
      && InOrder(r.after.root.left) == Before(t, k) + (InOrder(node.left) + [m] + InOrder(right)) + After(t, k)
      && m in Keys(right)
      && Keys(t) - {k} - Descendants(c) <= Keys(r.after.root.left) <= Keys(t) - {k}
      && ((c.Nil? || IsLeaf(c)) ==> Keys(r.after.root.left) == Keys(t) - {k})
      && !BST(r.after.root.left)
      && r.next == At(m)
      && r.cleared == c
      && r.after.count == Decr(s.count)
  {
    var t := s.root.left;
    var node := Lookup(t, k);
    EraseTwoChildrenTree(t, k, s.count);
    var m := Leftmost(node.right);
    var c := SuccessorChild(t, k);
    var right := ResetIn(node.right, c);
    var r := CopyPath(t, k, Node(Nil, m, Nil), node.left, right);
    assert Erase(s, At(k)).after.root.left == r;
    TwoChildResultKeys(t, k);
    GraftSuccessorInOrder(t, k, m, right);
    KeysAreInOrderElements(right);
    RepeatedKeyBreaksOrder(r, Before(t, k), InOrder(node.left), m, InOrder(right), After(t, k));
  }

  /** On a search tree every erase of a present key, as written, removes that
      key: `find` no longer reaches it, and the counter drops by one. */
  lemma EraseRemovesKey(s: PSet, k: int)
    requires BST(s.root.left) && k in Keys(s.root.left)
    ensures Erasable(s.root.left, k)
    ensures k !in Keys(Erase(s, At(k)).after.root.left)
    ensures Find(Erase(s, At(k)).after.root.left, k) == End
    ensures Erase(s, At(k)).after.count == Decr(s.count)
  {
    var t := s.root.left;
    ErasableOnBST(t, k);
    LookupFindsPresentKeys(t, k);
    var node := Lookup(t, k);
    if IsLeaf(node) {
      EraseLeaf(s, k);
    } else if HasOneChild(node) {
      EraseOneChild(s, k);
      LookupIsBST(t, k);
      assert OnlyChild(node).key != k;
    } else {
      EraseTwoChildren(s, k);
    }
  }
}

=== FILE: search.dfy ===
/** The read-only descents of the persistent set: `find`, `lower_bound`,
    `upper_bound` and the root-relative successor and predecessor searches
    `next` and `prev`. None of them allocates; each walks one path from the
    root, remembering the best candidate seen so far. */
module Search {
  import opened Trees

  /** An iterator: the sentinel (`End`) or a value node, named by its key. */
  datatype Iter = End | At(key: int)

  /** `m` is the smallest key of `keys` that is at least `k`. */
  ghost predicate LeastAtLeast(keys: set<int>, k: int, m: int) {
    m in keys && k <= m && forall x :: x in keys && k <= x ==> m <= x
  }

  /** `m` is the smallest key of `keys` that is greater than `k`. */
  ghost predicate LeastAbove(keys: set<int>, k: int, m: int) {
    m in keys && k < m && forall x :: x in keys && k < x ==> m <= x
  }

  /** `m` is the largest key of `keys` that is smaller than `k`. */
  ghost predicate GreatestBelow(keys: set<int>, k: int, m: int) {
    m in keys && m < k && forall x :: x in keys && x < k ==> x <= m
  }

  /** What `lower_bound(k)` promises: the first key not below `k`, or the end. */
  ghost predicate IsLowerBound(keys: set<int>, k: int, it: Iter) {
    if it.At? then LeastAtLeast(keys, k, it.key) else forall x :: x in keys ==> x < k
  }

  /** What `upper_bound(k)` and `next` promise: the first key above `k`, or the end. */
  ghost predicate IsSuccessor(keys: set<int>, k: int, it: Iter) {
    if it.At? then LeastAbove(keys, k, it.key) else forall x :: x in keys ==> x <= k
  }

  /** What `prev` promises: the last key below `k`, or the end. */
  ghost predicate IsPredecessor(keys: set<int>, k: int, it: Iter) {
    if it.At? then GreatestBelow(keys, k, it.key) else forall x :: x in keys ==> k <= x
  }

  /** `find(k)`: descend from the root; stop at a node holding `k` or fall off. */
  function Find(t: Tree, k: int): (r: Iter)
    ensures r.End? || r == At(k)
    ensures r.At? ==> k in Keys(t)
  {
    if Lookup(t, k).Node? then At(k) else End
  }

  /** The `lower_bound` loop from node `t` with candidate `best`: go right past
      keys below `k`; otherwise record the node and go left. */
  function LowerBoundFrom(t: Tree, k: int, best: Iter): (r: Iter)
    ensures r == best || (r.At? && r.key in Keys(t) && k <= r.key)
  {
    match t
    case Nil => best
    case Node(l, a, rt) =>
      if a < k then LowerBoundFrom(rt, k, best) else LowerBoundFrom(l, k, At(a))
  }

  /** The `upper_bound` loop, which is also the loop of `next`: record every
      node whose key is above `k` and go left there; otherwise go right. */
  function NextFrom(t: Tree, k: int, best: Iter): (r: Iter)
    ensures r == best || (r.At? && r.key in Keys(t) && k < r.key)
  {
    match t
    case Nil => best
    case Node(l, a, rt) =>
      if k < a then NextFrom(l, k, At(a)) else NextFrom(rt, k, best)
  }

  /** The `prev` loop: record every node whose key is below `k` and go right
      there; otherwise go left. */
  function PrevFrom(t: Tree, k: int, best: Iter): (r: Iter)
    ensures r == best || (r.At? && r.key in Keys(t) && r.key < k)
  {
    match t
    case Nil => best
    case Node(l, a, rt) =>
      if a < k then PrevFrom(rt, k, At(a)) else PrevFrom(l, k, best)
  }

  /** `lower_bound(k)`: the candidate starts at the sentinel, i.e. `End`. */
  function LowerBound(t: Tree, k: int): (r: Iter)
    ensures r.At? ==> r.key in Keys(t) && k <= r.key
  {
    LowerBoundFrom(t, k, End)
  }

  /** `next` from a node holding `k`, searched from the root; also `upper_bound(k)`. */
  function Next(t: Tree, k: int): (r: Iter)
    ensures r.At? ==> r.key in Keys(t) && k < r.key
  {
    NextFrom(t, k, End)
  }

  /** `prev` from a node holding `k`, searched from the root. */
  function Prev(t: Tree, k: int): (r: Iter)
    ensures r.At? ==> r.key in Keys(t) && r.key < k
  {
    PrevFrom(t, k, End)
  }

  /** On a search tree `find(k)` reaches `k` exactly when `k` is present. */
  lemma FindCorrect(t: Tree, k: int)
    requires BST(t)
    ensures Find(t, k) == At(k) <==> k in Keys(t)
    ensures Find(t, k) == End <==> k !in Keys(t)
  {
    LookupFindsPresentKeys(t, k);
  }

  lemma {:induction false} LowerBoundFromCorrect(t: Tree, k: int, best: Iter)
    requires BST(t)
    requires best.At? ==> k <= best.key && forall x :: x in Keys(t) ==> x < best.key
    ensures (forall x :: x in Keys(t) ==> x < k) ==> LowerBoundFrom(t, k, best) == best
    ensures !(forall x :: x in Keys(t) ==> x < k) ==>
      LowerBoundFrom(t, k, best).At? && LeastAtLeast(Keys(t), k, LowerBoundFrom(t, k, best).key)
  {
    match t
    case Nil =>
    case Node(l, a, rt) =>
      assert Keys(t) == Keys(l) + {a} + Keys(rt);
      if a < k {
        assert LowerBoundFrom(t, k, best) == LowerBoundFrom(rt, k, best);
        LowerBoundFromCorrect(rt, k, best);
        assert forall x :: x in Keys(t) && k <= x ==> x in Keys(rt);
      } else {
        assert LowerBoundFrom(t, k, best) == LowerBoundFrom(l, k, At(a));
        LowerBoundFromCorrect(l, k, At(a));
        assert forall x :: x in Keys(rt) ==> a < x;
      }
  }

  /** On a search tree `lower_bound(k)` is the smallest key at least `k`, or
      the end when every key is below `k`. */
  lemma LowerBoundCorrect(t: Tree, k: int)
    requires BST(t)
    ensures IsLowerBound(Keys(t), k, LowerBound(t, k))
  {
    LowerBoundFromCorrect(t, k, End);
  }

  lemma {:induction false} NextFromCorrect(t: Tree, k: int, best: Iter)
    requires BST(t)
    requires best.At? ==> k < best.key && forall x :: x in Keys(t) ==> x < best.key
    ensures (forall x :: x in Keys(t) ==> x <= k) ==> NextFrom(t, k, best) == best
    ensures !(forall x :: x in Keys(t) ==> x <= k) ==>
      NextFrom(t, k, best).At? && LeastAbove(Keys(t), k, NextFrom(t, k, best).key)
  {
    match t
    case Nil =>
    case Node(l, a, rt) =>
      assert Keys(t) == Keys(l) + {a} + Keys(rt);
      if k < a {
        assert NextFrom(t, k, best) == NextFrom(l, k, At(a));
        NextFromCorrect(l, k, At(a));
        assert forall x :: x in Keys(rt) ==> a < x;
      } else {
        assert NextFrom(t, k, best) == NextFrom(rt, k, best);
        NextFromCorrect(rt, k, best);
        assert forall x :: x in Keys(t) && k < x ==> x in Keys(rt);
      }
  }

  /** On a search tree the root-relative `next` from `k` (and `upper_bound(k)`)
      is the smallest key above `k`, or the end when there is none. */
  lemma NextCorrect(t: Tree, k: int)
    requires BST(t)
    ensures IsSuccessor(Keys(t), k, Next(t, k))
  {
    NextFromCorrect(t, k, End);
  }

  lemma {:induction false} PrevFromCorrect(t: Tree, k: int, best: Iter)
    requires BST(t)
    requires best.At? ==> best.key < k && forall x :: x in Keys(t) ==> best.key < x
    ensures (forall x :: x in Keys(t) ==> k <= x) ==> PrevFrom(t, k, best) == best
    ensures !(forall x :: x in Keys(t) ==> k <= x) ==>
      PrevFrom(t, k, best).At? && GreatestBelow(Keys(t), k, PrevFrom(t, k, best).key)
  {
    match t
    case Nil =>
    case Node(l, a, rt) =>
      assert Keys(t) == Keys(l) + {a} + Keys(rt);
      if a < k {
        assert PrevFrom(t, k, best) == PrevFrom(rt, k, At(a));
        PrevFromCorrect(rt, k, At(a));
        assert forall x :: x in Keys(l) ==> x < a;
      } else {
        assert PrevFrom(t, k, best) == PrevFrom(l, k, best);
        PrevFromCorrect(l, k, best);
        assert forall x :: x in Keys(t) && x < k ==> x in Keys(l);
      }
  }

  /** On a search tree the root-relative `prev` from `k` is the largest key
      below `k`, or the end when there is none. */
  lemma PrevCorrect(t: Tree, k: int)
    requires BST(t)
    ensures IsPredecessor(Keys(t), k, Prev(t, k))
  {
    PrevFromCorrect(t, k, End);
  }

  /** The bounds on the keys {1, 3, 5, 7}: `lower_bound` of 4 and of 5 is 5;
      `upper_bound` of 5 is 7 and of 7 is the end. */
  lemma BoundsOnOddKeys()
    ensures var t := Node(Node(Nil, 1, Nil), 3, Node(Node(Nil, 5, Nil), 7, Nil));
      && BST(t) && Keys(t) == {1, 3, 5, 7}
      && LowerBound(t, 4) == At(5) && LowerBound(t, 5) == At(5)
      && Next(t, 5) == At(7) && Next(t, 7) == End
  {
  }
}

=== FILE: tree.dfy ===
/** The node model of the persistent set: value nodes holding an integer key
    and owning (shared) left and right subtrees, the in-order abstraction of a
    tree, search-tree order, and the small node helpers of `node_t`. */
module Trees {

  /** A subtree reference: null (`Nil`) or a value node with its two children.
      Structural sharing between snapshots is implicit: a datatype value is
      never mutated, so every subtree a new version reuses is the old one. */
  datatype Tree = Nil | Node(left: Tree, key: int, right: Tree)

  /** The side a child hangs on (the `side` flag of the path copy: 0 left, 1 right). */
  datatype Side = Left | Right

  /** The keys held by a tree. */
  function Keys(t: Tree): set<int> {
    match t
    case Nil => {}
    case Node(l, k, r) => Keys(l) + {k} + Keys(r)
  }

  /** The structural in-order traversal: left subtree, node, right subtree,
      with duplicates kept. On a search tree it is the order `begin()` and
      `operator++` visit (`PersistentSets.IterateIsInOrder`); on other trees
      the two can differ, because `operator++` searches from the root. */
  function InOrder(t: Tree): seq<int> {
    match t
    case Nil => []
    case Node(l, k, r) => InOrder(l) + [k] + InOrder(r)
  }

  predicate StrictlySorted(s: seq<int>) {
    forall i, j :: 0 <= i < j < |s| ==> s[i] < s[j]
  }

  /** Search-tree order: every key on the left is smaller and every key on the
      right larger than the node's own key. */
  predicate BST(t: Tree) {
    match t
    case Nil => true
    case Node(l, k, r) =>
      && BST(l) && BST(r)
      && (forall x :: x in Keys(l) ==> x < k)
      && (forall x :: x in Keys(r) ==> k < x)
  }

  /** `is_leaf`: no children. */
  predicate IsLeaf(t: Tree): (b: bool)
    requires t.Node?
    ensures b <==> InOrder(t) == [t.key]
  {
    assert |InOrder(t)| == |InOrder(t.left)| + 1 + |InOrder(t.right)|;
    assert InOrder(t.left) == [] <==> t.left.Nil?;
    assert InOrder(t.right) == [] <==> t.right.Nil?;
    t.left.Nil? && t.right.Nil?
  }

  /** `has_one_child`: exactly one child, i.e. not a leaf and missing a
      child on some side. */
  predicate HasOneChild(t: Tree): (b: bool)
    requires t.Node?
    ensures b <==> !IsLeaf(t) && (t.left.Nil? || t.right.Nil?)
  {
    (t.left.Node? && t.right.Nil?) || (t.left.Nil? && t.right.Node?)
  }

  /** `get_only_child`: the left child when there is one, else the right one. */
  function OnlyChild(t: Tree): (c: Tree)
    requires t.Node?
    ensures IsLeaf(t) ==> c.Nil?
    ensures HasOneChild(t) ==> c.Node? && Keys(t) == Keys(c) + {t.key}
  {
    if t.left.Node? then t.left else t.right
  }

  /** `link_left`, `link_right` and `link`: overwrite one child of a node; a
      null parent is left alone. */
  function Link(parent: Tree, child: Tree, side: Side): (r: Tree)
    ensures r.Nil? <==> parent.Nil?
    ensures r.Node? ==> r.key == parent.key
    ensures r.Node? ==> (if side == Left then r.left == child && r.right == parent.right
                         else r.left == parent.left && r.right == child)
  {
    if parent.Nil? then Nil
    else if side == Left then Node(child, parent.key, parent.right)
    else Node(parent.left, parent.key, child)
  }

  /** Linking twice on the same side keeps only the second child; linking on
      both sides does not depend on the order; relinking a node's own child
      gives the node back. */
  lemma LinkLaws(parent: Tree, a: Tree, b: Tree, side: Side)
    ensures Link(Link(parent, a, side), b, side) == Link(parent, b, side)
    ensures Link(Link(parent, a, Left), b, Right) == Link(Link(parent, b, Right), a, Left)
    ensures parent.Node? ==> Link(parent, if side == Left then parent.left else parent.right, side) == parent
  {
  }

  /** The node a search for `k` stops at: the first node on the search path
      holding `k`, or `Nil` when the path falls off the tree. */
  function Lookup(t: Tree, k: int): (n: Tree)
    ensures n.Node? ==> n.key == k && Keys(n) <= Keys(t)
  {
    match t
    case Nil => Nil
    case Node(l, a, r) =>
      if a == k then t
      else if a < k then Lookup(r, k)
      else Lookup(l, k)
  }

  /** `min_in_subtree` on a non-null node: follow left children to the end.
      Whatever the order, the walk ends at a key of the subtree. */
  function Leftmost(t: Tree): (m: int)
    requires t.Node?
    ensures m in Keys(t)
  {
    if t.left.Nil? then t.key else Leftmost(t.left)
  }

  /** `max_in_subtree` on a non-null node: follow right children to the end.
      Whatever the order, the walk ends at a key of the subtree. */
  function Rightmost(t: Tree): (m: int)
    requires t.Node?
    ensures m in Keys(t)
  {
    if t.right.Nil? then t.key else Rightmost(t.right)
  }

  lemma {:induction false} KeysAreInOrderElements(t: Tree)
    ensures forall x :: x in Keys(t) <==> x in InOrder(t)
    ensures |Keys(t)| <= |InOrder(t)|
  {
    match t
    case Nil =>
    case Node(l, k, r) =>
      KeysAreInOrderElements(l);
      KeysAreInOrderElements(r);
      assert Keys(t) == Keys(l) + {k} + Keys(r);
      assert |Keys(l) + {k}| <= |Keys(l)| + 1;
  }

  /** A concatenation around a pivot is strictly sorted when both sides are and
      the pivot separates them. */
  lemma SortedAroundPivot(a: seq<int>, x: int, b: seq<int>)
    requires StrictlySorted(a) && StrictlySorted(b)
    requires forall y :: y in a ==> y < x
    requires forall y :: y in b ==> x < y
    ensures StrictlySorted(a + [x] + b)
  {
    var s := a + [x] + b;
    forall i, j | 0 <= i < j < |s|
      ensures s[i] < s[j]
    {
      if j < |a| {
        assert s[i] == a[i] && s[j] == a[j];
      } else if i > |a| {
        assert s[i] == b[i - |a| - 1] && s[j] == b[j - |a| - 1];
      } else if i == |a| {
        assert s[j] == b[j - |a| - 1];
        assert s[j] in b;
      } else if j == |a| {
        assert s[i] == a[i];
        assert s[i] in a;
      } else {
        assert s[i] == a[i] && s[i] in a;
        assert s[j] == b[j - |a| - 1] && s[j] in b;
      }
    }
  }

  /** The in-order sequence of a search tree is strictly increasing and holds
      each key once. */
  lemma {:induction false} BSTInOrderSorted(t: Tree)
    requires BST(t)
    ensures StrictlySorted(InOrder(t))
    ensures |InOrder(t)| == |Keys(t)|
  {
    match t
    case Nil =>
    case Node(l, k, r) =>
      BSTInOrderSorted(l);
      BSTInOrderSorted(r);
      KeysAreInOrderElements(l);
      KeysAreInOrderElements(r);
      SortedAroundPivot(InOrder(l), k, InOrder(r));
      assert Keys(l) !! Keys(r) && k !in Keys(l) && k !in Keys(r) by {
        forall x | x in Keys(l) ensures x !in Keys(r) && x != k {
        }
      }
      assert |Keys(l) + {k}| == |Keys(l)| + 1;
  }

  /** On a search tree `min_in_subtree` reaches the smallest key. */
  lemma {:induction false} LeftmostIsMinimum(t: Tree)
    requires t.Node? && BST(t)
    ensures Leftmost(t) in Keys(t)
    ensures forall x :: x in Keys(t) ==> Leftmost(t) <= x
  {
    if t.left.Node? {
      LeftmostIsMinimum(t.left);
    }
  }

  /** On a search tree `max_in_subtree` reaches the largest key. */
  lemma {:induction false} RightmostIsMaximum(t: Tree)
    requires t.Node? && BST(t)
    ensures Rightmost(t) in Keys(t)
    ensures forall x :: x in Keys(t) ==> x <= Rightmost(t)
  {
    if t.right.Node? {
      RightmostIsMaximum(t.right);
    }
  }

  /** On a search tree the search for a key that is leftmost stops at a node
      without a left child. */
  lemma {:induction false} LookupLeftmost(t: Tree)
    requires t.Node? && BST(t)
    ensures Lookup(t, Leftmost(t)).Node? && Lookup(t, Leftmost(t)).left.Nil?
  {
    if t.left.Node? {
      LeftmostIsMinimum(t.left);
      LookupLeftmost(t.left);
    }
  }

  /** On a search tree the search for `k` succeeds exactly when `k` is present. */
  lemma {:induction false} LookupFindsPresentKeys(t: Tree, k: int)
    requires BST(t)
    ensures Lookup(t, k).Node? <==> k in Keys(t)
  {
    match t
    case Nil =>
    case Node(l, a, r) =>
      if a != k {
        LookupFindsPresentKeys(l, k);
        LookupFindsPresentKeys(r, k);
      }
  }

  /** A subtree of a search tree is a search tree. */
  lemma {:induction false} LookupIsBST(t: Tree, k: int)
    requires BST(t)
    ensures BST(Lookup(t, k))
  {
    match t
    case Nil =>
    case Node(l, a, r) =>
      if a != k {
        LookupIsBST(l, k);
        LookupIsBST(r, k);
      }
  }
}
